=== FILE: README.md ===
# Chains — a verified model of the analysis core

Chains records executions of multi-step pipelines (retriever, LLM, transformer steps) as
traces and explains why some of them fail. This project models that core in Dafny:

- the trace model and the trace logger;
- causal discovery: which steps' output lengths correlate with final quality;
- failure attribution: which step of a failed trace deviated most from successful runs;
- failure-condition detection: thresholds on features that separate failing from
  passing runs of the root step;
- fix suggestion: templates per step type plus length guards for detected conditions;
- the settings: provider defaults and model-name resolution.

Each module follows one source file:

| file | models |
|---|---|
| `traces.dfy` | `PipelineStep`, `PipelineTrace`, `step_names`, `is_failure` |
| `values.dfy` | the `Any` values steps carry, `dict.get` fallbacks, `_safe_serialize` |
| `logger.dfy` | `TraceLogger`, as pure state transitions |
| `discovery.dfy` | `StepImpact`, `CausalGraph`, `discover_step_quality_causation` |
| `attribution.dfy` | `RootCause`, `attribute_failure`, `attribute_failures` |
| `conditions.dfy` | `FailureCondition`, `detect_failure_conditions`, `_extract_features` |
| `fixes.dfy` | `Fix`, `_FIX_TEMPLATES`, `suggest_fixes` |
| `config.dfy` | `LLMProvider`, `_DEFAULT_MODELS`, `ChainsSettings` |

Supporting modules:

- `numeric.dfy`: Python's `round` (half to even, on exact reals), `int()` truncation,
  `f"{x:.1f}"`, decimal text and the mean.
- `seqs.dfy`: the stable descending sort behind `list.sort(key=…, reverse=True)`,
  order-preserving de-duplication, filter-maps, substring search and lower-casing.
- `host.dfy`: the numeric library results as parameters.
- `wrappers.dfy`: `Option`.

Numbers are exact reals. Three kinds of result come from libraries and are passed in as
fields of `Host.Oracles`:

- the Pearson correlation and its p-value;
- the standard deviation;
- `str()` of values other than strings and integers.

`Host.Sound` states the two facts the proofs use about them: the correlation lies in [-1, 1], and the standard deviation is never negative.

## Model

| member | source | states |
|---|---|---|
| Traces.Names | chains/instrumentation/logger.py:41-43 | the step names have one entry per step, in step order |
| Traces.AnyErrorMeansSomeStep | chains/instrumentation/logger.py:49 | the error test holds exactly when some step recorded an error, even an empty one |
| Traces.IsFailureRule | chains/instrumentation/logger.py:45-49 | a trace with a quality score fails exactly when the score is below 0.5; only without a score does it fail exactly when some step has an error |
| Traces.FindStepIndex | chains/discovery/causal.py:77 | the index found names the wanted step and no earlier step has that name; no index means no step has it |
| Traces.FindStep | chains/attribution/engine.py:59 | a step is found exactly when the name occurs in the trace, and it is a step of the trace with that name |
| Traces.OutputLengthFallback | chains/discovery/causal.py:82-83 | the output text is `outputs["text"]`, else `outputs["output"]`, else empty (length 0) |
| Values.Lookup | chains/conditions/detector.py:104 | a chain of `get` fallbacks yields the first key present, or the default when none is |
| Values.SafeSerialize | chains/instrumentation/logger.py:165-172 | scalars are kept, other objects become their `str`, a dict keeps its keys with every entry serialized recursively, a list keeps its length with every item serialized recursively, and the result is JSON-serializable |
| Values.NestedObjectBecomesText | chains/instrumentation/logger.py:165-172 | an object nested at any dict key or list index comes back as the string of its `str` text |
| Values.SafeSerializeFixesSerializable | chains/instrumentation/logger.py:165-172 | an already serializable value comes back unchanged |
| Values.SafeSerializeIdempotent | chains/instrumentation/logger.py:165-172 | serializing twice equals serializing once |
| Host.Str | chains/discovery/causal.py:82 | `str` of a string is itself, of `None` "None", of a boolean "True" or "False", and of an integer its decimal digits with a leading "-" when negative |
| Logger.NewLogger | chains/instrumentation/logger.py:55-57 | a new logger has no traces, no pending steps, and neither a current trace id nor a current context |
| Logger.StartTrace | chains/instrumentation/logger.py:63-68 | the given id is returned and recorded, pending steps are dropped, traces are kept, and a missing context becomes the empty dict |
| Logger.LogStep | chains/instrumentation/logger.py:70-89 | exactly one step is appended to the pending steps; nothing else changes |
| Logger.LoggedStep | chains/instrumentation/logger.py:80-88 | the appended step carries the given fields, with absent dicts as empty dicts |
| Logger.EndTrace | chains/instrumentation/logger.py:91-101 | the trace holds the pending steps, output, score and the given time; it takes the started id and context, or a fresh id and `{}` if none was started; it is appended and the buffer is emptied |
| Logger.EndTraceBeforeStart | chains/instrumentation/logger.py:91-101 | ending a trace on a new logger gives a fresh id, `{}` as context and no steps, and that trace is the only one recorded |
| Logger.LogAllAppends | chains/instrumentation/logger.py:89 | logging steps one by one appends exactly them, in order, and changes nothing else |
| Logger.Session | chains/instrumentation/logger.py:63-101 | start, log and end produce a trace with the started id and context and exactly the logged steps, and append it to the traces |
| Logger.EndTraceTwice | chains/instrumentation/logger.py:91-101 | ending twice without a new start gives two traces with the same id, and the second has no steps |
| Discovery.FirstImpactIndex | chains/discovery/causal.py:36-37 | the index found is the first impact with the name; none means no impact has it |
| Discovery.GetImpact | chains/discovery/causal.py:36-37 | `get_impact` is `None` exactly when no impact has the name; otherwise it returns an impact of the graph with that name |
| Discovery.GetImpactIsFirst | chains/discovery/causal.py:36-37 | `get_impact` returns the first impact with the name |
| Discovery.FilterSignificant | chains/discovery/causal.py:39-41 | every impact kept is significant |
| Discovery.SignificantMember | chains/discovery/causal.py:39-41 | an impact is among the significant steps exactly when it is in the graph and significant |
| Discovery.FilterSignificantAppend | chains/discovery/causal.py:41 | the filter keeps order: filtering a concatenation concatenates the filtered parts |
| Discovery.Scored | chains/discovery/causal.py:58 | every kept trace has a quality score |
| Discovery.ScoredAppend | chains/discovery/causal.py:58 | the filter keeps trace order |
| Discovery.ScoredCount | chains/discovery/causal.py:58-60 | the number of scored traces is the number of positions holding a score |
| Discovery.DiscoverCountsScored | chains/discovery/causal.py:58-60 | `n_traces` counts exactly the traces with a quality score |
| Discovery.AllNamesMembers | chains/discovery/causal.py:63-67 | a name is collected exactly when some scored trace has a step with it |
| Discovery.StepFeature | chains/discovery/causal.py:82-85 | the feature is the output length, forced to 0 by a non-empty error |
| Discovery.Features | chains/discovery/causal.py:76-87 | there is one feature per trace that has the step (contents: `Discovery.SampleAt`) |
| Discovery.Qualities | chains/discovery/causal.py:76-88 | there is one quality per trace that has the step, as many as features (contents: `Discovery.SampleAt`) |
| Discovery.SampleAt | chains/discovery/causal.py:76-88 | the i-th sample pair comes from the i-th scored trace that has the step: its feature is that trace's first such step's feature and its quality is that trace's score |
| Discovery.ImpactFor | chains/discovery/causal.py:90-110 | an impact exists exactly with at least 5 samples; constant arrays give the zero-variance impact; otherwise the correlation is round(r, 4) and the p-value round(p, 6) of the oracle results; effect size is \|correlation\| in [0, 1]; significance means the variance check passed and the unrounded p is below the level |
| Discovery.EffectIsAbsCorrelation | chains/discovery/causal.py:106-108 | rounding \|r\| to 4 places equals \|round(r, 4)\|, and is non-negative |
| Discovery.EffectBound | chains/discovery/causal.py:108 | with a sound correlation the effect size is at most 1 |
| Discovery.ImpactOf | chains/discovery/causal.py:73-110 | a step gets an impact exactly when at least 5 scored traces contain it, and the impact carries its name |
| Discovery.Impacts | chains/discovery/causal.py:71-110 | each collected impact is the one computed for its own step name |
| Discovery.WellSampled | chains/discovery/causal.py:90-91 | a name survives exactly when it is listed and at least 5 scored traces contain it; distinct names stay distinct |
| Discovery.ImpactsAreWellSampled | chains/discovery/causal.py:71-110 | the impacts' names are exactly the well-sampled step names, in loop order |
| Discovery.Discover | chains/discovery/causal.py:44-121 | `n_traces` is the number of scored traces; with fewer than 5 the graph is empty; the impacts are sorted by decreasing effect size |
| Discovery.DiscoverStepOrder | chains/discovery/causal.py:63-67 | `step_order` lists each step name of the scored traces exactly once, in order of first appearance |
| Discovery.DiscoverRanking | chains/discovery/causal.py:112 | the ranked impacts are a permutation of the computed ones, sorted by decreasing effect size, with ties kept in step order |
| Discovery.RankedMember | chains/discovery/causal.py:112 | ranking neither adds nor removes an impact |
| Discovery.DiscoverImpactsFromSamples | chains/discovery/causal.py:71-112 | every impact in the graph is the one computed from its step's samples in at least 5 scored traces; its effect size is \|correlation\|, non-negative, and at most 1 for a sound correlation |
| Discovery.DiscoverWhichSteps | chains/discovery/causal.py:71-121 | a step has an impact exactly when it is in `step_order` and at least 5 scored traces contain it; no step has two |
| Discovery.EmptyErrorIsFailureButKeepsFeature | chains/discovery/causal.py:84-85 | an empty error string makes an unscored trace a failure but does not zero the discovery feature |
| Discovery.StoredPValueCanEqualLevel | chains/discovery/causal.py:107-109 | an unrounded p of 0.0099996 is significant at level 0.01 while the stored p-value is 0.01 |
| Attribution.Successful | chains/attribution/engine.py:42 | every reference trace is scored at least 0.7, and there are no more of them than traces |
| Attribution.SuccessfulMember | chains/attribution/engine.py:42 | a trace is a reference exactly when it is among the traces and scored at least 0.7 |
| Attribution.SuccessfulAppend | chains/attribution/engine.py:42 | the filter keeps trace order: filtering a concatenation concatenates the filtered parts |
| Attribution.SuccessLengths | chains/attribution/engine.py:57-62 | there is one non-negative length per reference trace with the step; the list is empty exactly when no reference trace has the step (contents: `Attribution.SuccessLengthAt`) |
| Attribution.SuccessLengthAt | chains/attribution/engine.py:57-62 | the i-th length is the output length of the first matching step of the i-th reference trace that has the step |
| Attribution.CausalWeight | chains/attribution/engine.py:81-82 | the weight is the impact's effect size, or 0.1 without an impact |
| Attribution.Deviation | chains/attribution/engine.py:70-74 | the deviation times max(std, 1) is the distance of the failed length from the reference mean; with std at most 1 it is that distance; it is non-negative |
| Attribution.ZScore | chains/attribution/engine.py:74-78 | the z-score is the deviation, plus 5 exactly when the step has a non-empty error; it is non-negative |
| Attribution.ScoreStep | chains/attribution/engine.py:55-93 | a step is scored exactly when some reference trace has it; then the score is z-score times causal weight over its reference lengths, and the evidence holds its output length, the mean rounded to 1 place, z rounded to 2, the weight rounded to 3, and whether any error was recorded |
| Attribution.Describe | chains/attribution/engine.py:111-116 | an error takes precedence; otherwise the "deviated" text exactly when the rounded z exceeds 2; otherwise the "contributed" text |
| Attribution.AttributeFailure | chains/attribution/engine.py:28-124 | the trace id is kept and no fix is set; without reference traces the root is the first step (or "unknown") with confidence 0 and no evidence |
| Attribution.UndeterminedWhenNothingScores | chains/attribution/engine.py:95-101 | with references but no scored step the root is "unknown", confidence 0, no evidence |
| Attribution.RootIsLatestBest | chains/attribution/engine.py:103-124 | the root is a step with the highest score, and the latest one among ties; the condition, evidence and confidence are that step's |
| Attribution.ConfidenceInUnitInterval | chains/attribution/engine.py:108-122 | with non-negative effect sizes the confidence lies in [0, 1] |
| Attribution.ScoreIsNonNegative | chains/attribution/engine.py:81-84 | with non-negative effect sizes every deviation score is non-negative |
| Attribution.ConfidenceSaturates | chains/attribution/engine.py:108 | a root score of at least 5 gives confidence exactly 1 |
| Attribution.FullConfidence | chains/attribution/engine.py:108 | `round(min(score / 5, 1), 3)` is 1 for scores of at least 5 |
| Attribution.EmptyErrorNoBonusButThrew | chains/attribution/engine.py:77-112 | an empty error string adds no bonus, yet the evidence says there is an error and the text says the step threw one |
| Attribution.RoundedZDecidesCondition | chains/attribution/engine.py:111-116 | the condition is decided on the rounded z: an unrounded 2.004 only "contributed" |
| Attribution.Failed | chains/attribution/engine.py:132 | every kept trace fails, and there are no more of them than traces |
| Attribution.FailedMember | chains/attribution/engine.py:132 | a trace is kept exactly when it is among the traces and `is_failure` holds |
| Attribution.FailedAppend | chains/attribution/engine.py:132 | the filter keeps trace order: filtering a concatenation concatenates the filtered parts |
| Attribution.AttributeEach | chains/attribution/engine.py:133-136 | one root cause per failed trace, in order, each from `attribute_failure` |
| Attribution.AttributeFailures | chains/attribution/engine.py:127-138 | one root cause per failing trace, in trace order, carrying that trace's id, and each entry is `attribute_failure` of the i-th failing trace |
| Conditions.ExtractFeatures | chains/conditions/detector.py:99-118 | the output length and the latency are the step's own (input and query texts: the two fallback lemmas) |
| Conditions.InputLengthFallback | chains/conditions/detector.py:104-105 | the input text falls back from "query" to "text" to "input", and is empty without them |
| Conditions.QueryLengthFallback | chains/conditions/detector.py:115-116 | the query text falls back from the context's "query" to its "input", and is empty without them |
| Conditions.Partition | chains/conditions/detector.py:39-48 | the failed group has one entry per failing trace with the root step and the other one per non-failing such trace; the failed group is empty exactly when no such trace failed, and the other exactly when all failed |
| Conditions.PartitionAt | chains/conditions/detector.py:39-48 | the i-th entry of a group is the features of the i-th trace, in trace order, that has the root step and the group's failure status |
| Conditions.Column | chains/conditions/detector.py:61-62 | the values of one feature, one per group member, in order |
| Conditions.CountBeyond | chains/conditions/detector.py:76-80 | the affected count never exceeds the group size |
| Conditions.CountBeyondIsSize | chains/conditions/detector.py:76-80 | the affected count is the number of positions beyond the threshold |
| Conditions.MeanBeyondHasWitness | chains/conditions/detector.py:74-80 | a group whose mean lies beyond a threshold has a value beyond it |
| Conditions.Share | chains/conditions/detector.py:83-85 | the share lies in [0, 1], and it reaches 0.5 exactly when at least half are affected |
| Conditions.ShareBounds | chains/conditions/detector.py:83-85 | the same two facts for any count and non-zero total |
| Conditions.ConditionFor | chains/conditions/detector.py:60-92 | a condition exists only for separated groups, and then for exactly those where at least half the failing values lie beyond the midpoint; its text, counts and rounded confidence follow the means' direction |
| Conditions.ConditionBounds | chains/conditions/detector.py:74-92 | a reported condition names the root step, has between 1 and all failing values affected, at least 3 failing values, and confidence in [0.5, 1] |
| Conditions.AffectedIsPositive | chains/conditions/detector.py:74-81 | when the means differ, at least one failing value lies beyond the midpoint |
| Conditions.DetectFailureConditions | chains/conditions/detector.py:26-96 | at most four conditions, sorted by decreasing confidence |
| Conditions.NothingWithoutBothGroups | chains/conditions/detector.py:50-51 | without both a failing and a passing run of the root step there are no conditions |
| Conditions.DetectedFromSomeKey | chains/conditions/detector.py:60-94 | every reported condition is the one computed for some feature from the two groups |
| Conditions.DetectedComplete | chains/conditions/detector.py:50-94 | with runs on both sides, every feature's qualifying condition is reported, whatever the key order |
| Conditions.DetectedNoDup | chains/conditions/detector.py:60-92 | no condition is reported twice |
| Conditions.DetectedOnePerKey | chains/conditions/detector.py:56-92 | at most one condition per feature: two reported conditions were computed for two different features |
| Conditions.DetectedConditionsShape | chains/conditions/detector.py:60-94 | every reported condition is `key op threshold` about the root step, with 1 to all failing values affected and confidence in [0.5, 1] |
| Conditions.KeyOrderIrrelevant | chains/conditions/detector.py:56-94 | any iteration order of the feature keys yields the same conditions, up to order |
| Fixes.TemplatesFor | chains/fixes/suggester.py:66 | the type's templates, or the "llm" ones for an unknown type: 2 for "transformer", 3 otherwise |
| Fixes.Retarget | chains/fixes/suggester.py:68-77 | one fix per template, identical except for the root step name |
| Fixes.GuardOf | chains/fixes/suggester.py:81-88 | a condition adds one guard exactly when its text mentions "length" and ">", and that guard is its length-guard fix; otherwise none |
| Fixes.Min2 | chains/fixes/suggester.py:80 | the `[:2]` slice keeps min(2, n) conditions |
| Fixes.Guards | chains/fixes/suggester.py:80-88 | one guard per qualifying condition, so at most one per condition (contents: `Fixes.GuardAt`, `Fixes.GuardsComplete`) |
| Fixes.GuardAt | chains/fixes/suggester.py:80-88 | the i-th guard is the length-guard fix of the i-th qualifying condition, in condition order |
| Fixes.GuardsComplete | chains/fixes/suggester.py:80-88 | every qualifying condition earns its guard |
| Fixes.InsertGuardsReverses | chains/fixes/suggester.py:80-82 | inserting at the front one by one lays the guards out in reverse condition order, ahead of the templates |
| Fixes.SuggestFixesLayout | chains/fixes/suggester.py:60-91 | the fixes are the guards of the first two conditions, latest first, then the retargeted templates |
| Fixes.SuggestionsTargetRoot | chains/fixes/suggester.py:60-91 | every suggested fix targets the root step |
| Fixes.GuardsTarget | chains/fixes/suggester.py:82-83 | every guard targets the given step |
| Fixes.SuggestionCount | chains/fixes/suggester.py:66-88 | the count is the template count (2 for "transformer", 3 otherwise) plus the number of qualifying conditions among the first two; hence at most two more, and at most one more per condition |
| Fixes.OnlyFirstTwoConditions | chains/fixes/suggester.py:80 | conditions after the second make no difference |
| Fixes.ConditionTextIsLower | chains/fixes/suggester.py:81 | lower-casing a detector condition text leaves it unchanged |
| Fixes.ConditionTextMentionsLength | chains/fixes/suggester.py:81 | a detector condition text contains "length" exactly when its feature is not the latency |
| Fixes.ConditionTextMentionsGreater | chains/fixes/suggester.py:81 | a detector condition text contains ">" exactly when it bounds from above |
| Fixes.GuardForDetectedCondition | chains/fixes/suggester.py:81 | a detector condition earns a length guard exactly when it bounds a length feature (not the latency) from above |
| Config.DefaultModel | chains/config.py:22-29 | every provider has a non-empty default model, "llama3.1" for Ollama |
| Config.ProviderNameInjective | chains/config.py:13-19 | distinct providers have distinct names |
| Config.MakeSettings | chains/config.py:40-47 | settings are built exactly when temperature, retries, minimum traces and significance level are in their declared ranges, and they keep the given values |
| Config.DefaultSettings | chains/config.py:40-47 | the defaults satisfy the field ranges: Ollama, no model, 20 traces, level 0.01 |
| Config.BaseModel | chains/config.py:51 | the configured model if non-empty, else the provider's default; never empty |
| Config.ResolvedModel | chains/config.py:49-54 | Ollama names without a "/" get the "ollama/" prefix; every other name is kept |
| Config.ResolvedModelShape | chains/config.py:49-54 | the resolved name is non-empty, and under Ollama it contains "/" |
| Config.ResolvedModelIdempotent | chains/config.py:49-54 | configuring the resolved name resolves to the same name |
| Config.DefaultResolvedModel | chains/config.py:40-54 | with the defaults the model is "ollama/llama3.1" |
| Numeric.RoundHalfEven | chains/discovery/causal.py:106-108 | the integer is within 1/2 of the input, and even on a tie |
| Numeric.RoundHalfEvenUnique | chains/discovery/causal.py:106-108 | at most one integer rounds an input half to even |
| Numeric.RoundOdd | chains/discovery/causal.py:106-108 | `round(-x, d) == -round(x, d)` |
| Numeric.RoundMonotone | chains/discovery/causal.py:106-108 | rounding preserves order |
| Numeric.RoundExact | chains/discovery/causal.py:106-108 | a value with at most d decimals is unchanged by rounding to d places |
| Numeric.RoundUnitInterval | chains/attribution/engine.py:122 | rounding keeps a value in [0, 1] inside [0, 1] |
| Numeric.RoundNonNegative | chains/attribution/engine.py:89-90 | rounding keeps a value non-negative |
| Numeric.Trunc | chains/fixes/suggester.py:86 | `int()` truncates toward zero: the result is no larger in magnitude and less than 1 away |
| Numeric.NatToStringRoundTrip | chains/fixes/suggester.py:86 | the decimal text of a natural number reads back as that number |
| Numeric.Fixed1 | chains/conditions/detector.py:77-81 | the text has only digits, '-' and '.', is at least 3 characters long, and starts with '-' exactly for negatives (its value: `Numeric.Fixed1ReadBack`) |
| Numeric.Fixed1ReadBack | chains/conditions/detector.py:77-81 | after the optional '-', the digits before the point and the one after it read back as \|x\| in tenths, rounded half to even |
| Seqs.SortDesc | chains/discovery/causal.py:112 | the result has the same length and is non-increasing in the key |
| Seqs.SortDescPermutes | chains/discovery/causal.py:112 | sorting rearranges the elements without adding or losing any |
| Seqs.SortDescStable | chains/discovery/causal.py:112 | elements with equal keys keep their relative order |
| Seqs.SortDescHead | chains/attribution/engine.py:104-105 | the first element after sorting is the first element with the largest key |
| Seqs.Dedup | chains/discovery/causal.py:63-67 | no duplicates, and exactly the input's elements |
| Seqs.DedupKeepsFirst | chains/discovery/causal.py:63-67 | each element appears in order of its first occurrence |
| Seqs.FilterMapPermutation | chains/conditions/detector.py:60-92 | rearranging the inputs of the feature loop rearranges its outputs |
| Seqs.BestOfReversed | chains/attribution/engine.py:55-105 | after the backward walk and the stable sort, the head comes from the latest position with the largest key |
| Seqs.Lower | chains/fixes/suggester.py:81 | lower-casing maps every character and keeps the length |
| Seqs.ContainsChar | chains/fixes/suggester.py:81 | a one-character string is a substring exactly when the character occurs |

## Left out

- Input and output are not modelled: `TraceLogger.export`, `load_traces`, the JSON file formats and the logging calls.
  - `_safe_serialize` is modelled on its own.
- Generated trace ids (`uuid4`) and `datetime.now()` are parameters of the logger functions.
- The numeric library is not modelled: `scipy.stats.pearsonr`, `np.std`, and `str()` of floats and arbitrary objects are `Host.Oracles` fields.
  - Only the range of the correlation and the non-negativity of the standard deviation are assumed, through `Host.Sound`.
- Floating-point arithmetic is not modelled. All numbers are exact reals, so the model is silent about overflow, NaN and binary representation error.
  - `int(conf * 100)` on a double can be one lower than the exact truncation.
  - `f"{x:.1f}"` rounds the exact decimal here; Python rounds the binary double (0.35 gives "0.4" here and "0.3" in Python).
- `Seqs.Lower` only folds ASCII letters; Python's `str.lower` also folds other scripts. On the detector's condition texts, which are ASCII, the two agree.
- Set iteration order is not fixed: the detector's `set()` of feature keys is iterated in an order Python does not fix, and `keyOrder` is any ordering of the four keys.
  - `Conditions.KeyOrderIrrelevant` shows this only affects the order among equal confidences.
- The detector's `isinstance(..., (int, float))` filter is not modelled, because `_extract_features` only produces numbers.
  - Every feature dict has all four keys, so the per-key lists have the group sizes.
- Attribution's `np.mean` and `np.std` of the reference lengths are exact mean and oracle std.
  - `max(std, 1)` is modelled as written.
- Settings loading is not modelled: environment variables, the `.env` file, `lru_cache` on `get_settings`, `log_level` and `configure_logging`.
  - Pydantic's rejection of an out-of-range field is `None` from `Config.MakeSettings`.
- The `_DEFAULT_MODELS.get(provider, "llama3.1")` fallback is not modelled: every provider has an entry, so it never applies.
- `min_traces` is never read by the analysis code; discovery hard-codes 5. The model follows the code.
- The CLI, the HTTP API, the visualisation and the LLM adapter are outside the analysis core.
- Discovery.ImpactFor: significance is `p < level` on the UNROUNDED p-value, as the code does, so a stored `p_value` may equal the level while `is_significant` holds.
  - The stored `p_value` is the rounded one (chains/discovery/causal.py:107).
  - `Discovery.StoredPValueCanEqualLevel` exhibits this.
- Attribution.Describe: the "deviated" text is chosen on the rounded z-score (`evidence["z_score"] > 2`), as the code does, not on the raw one.
  - `Attribution.RoundedZDecidesCondition` exhibits this.
- The code's empty-error tests differ by site, and the model keeps each site's test:
  - `is_failure` and `has_error` test `is not None`;
  - the discovery feature and the attribution bonus test truthiness, which excludes `""`.
- The attribution `if matching:` and `if impact:` tests are always true for a found step or impact, since dataclass instances are truthy. They are modelled as presence tests.

=== FILE: attribution.dfy ===
/**
 * Failure attribution (`attribute_failure`, `attribute_failures`): walk a failed trace's
 * steps from last to first, score each step by how far its output length strays from
 * the successful traces, weighted by the step's effect size in the causal graph, and
 * name the best-scoring step as the root cause.
 */
module Attribution {
  import opened Wrappers
  import opened Numeric
  import opened Seqs
  import opened Host
  import opened Traces
  import opened Discovery

  /** The `evidence` dict of a root cause. */
  datatype Evidence = Evidence(
    failedOutputLength: nat,
    meanSuccessfulLength: real,
    zScore: real,
    causalWeight: real,
    hasError: bool)

  /** One `(step.name, deviation_score, evidence)` entry of `step_scores`. */
  datatype StepScore = StepScore(name: string, score: real, evidence: Evidence)

  /**
   * `RootCause`. `evidence` is `None` where `attribute_failure` leaves the dict empty;
   * `suggestedFix` stays empty here and is filled in by the caller.
   */
  datatype RootCause = RootCause(
    traceId: string,
    rootStep: string,
    failureCondition: string,
    confidence: real,
    evidence: Option<Evidence>,
    suggestedFix: string)

  /** Quality at or above which a trace is a successful reference. */
  const SuccessThreshold: real := 0.7

  /** Added to the z-score of a step that reported a non-empty error. */
  const ErrorBonus: real := 5.0

  /** Weight of a step the causal graph has no impact for. */
  const DefaultWeight: real := 0.1

  /** The deviation score at which confidence saturates at 1. */
  const ConfidenceScale: real := 5.0

  const NoReferenceText: string := "No successful traces for comparison"
  const UndeterminedText: string := "Could not determine failure source"

  function ThrewErrorText(name: string): string
  {
    "Step '" + name + "' threw an error"
  }

  function DeviatedText(name: string, z: real): string
  {
    "Step '" + name + "' output deviated significantly from successful traces (z=" + Fixed1(z) + ")"
  }

  function ContributedText(name: string): string
  {
    "Step '" + name + "' contributed to quality degradation"
  }

  function ScoreKey(s: StepScore): real
  {
    s.score
  }

  /** `t.quality_score is not None and t.quality_score >= 0.7`. */
  predicate IsReference(t: Trace)
  {
    t.quality.Some? && t.quality.value >= SuccessThreshold
  }

  /** The reference traces: those scored at least 0.7. */
  function Successful(ts: seq<Trace>): (r: seq<Trace>)
    ensures |r| <= |ts|
    ensures forall i :: 0 <= i < |r| ==> r[i].quality.Some? && r[i].quality.value >= SuccessThreshold
  {
    if ts == [] then []
    else
      var rest := Successful(ts[1..]);
      if IsReference(ts[0]) then [ts[0]] + rest else rest
  }

  /** A trace is a reference exactly when it is one of the traces and scored at least 0.7. */
  lemma {:induction false} SuccessfulMember(ts: seq<Trace>, t: Trace)
    ensures t in Successful(ts) <==> t in ts && IsReference(t)
  {
    if ts != [] {
      SuccessfulMember(ts[1..], t);
      assert ts == [ts[0]] + ts[1..];
      SuccessfulCons(ts[0], ts[1..]);
      SuccessfulSingle(ts[0]);
    }
  }

  /** The reference filter keeps trace order and multiplicity: it distributes over concatenation. */
  lemma {:induction false} SuccessfulAppend(a: seq<Trace>, b: seq<Trace>)
    ensures Successful(a + b) == Successful(a) + Successful(b)
  {
    if a != [] {
      var h := Successful([a[0]]);
      assert a + b == [a[0]] + (a[1..] + b);
      assert a == [a[0]] + a[1..];
      SuccessfulCons(a[0], a[1..] + b);
      SuccessfulCons(a[0], a[1..]);
      SuccessfulAppend(a[1..], b);
      assert h + (Successful(a[1..]) + Successful(b)) == (h + Successful(a[1..])) + Successful(b);
    } else {
      assert a + b == b;
    }
  }

  lemma SuccessfulCons(t: Trace, rest: seq<Trace>)
    ensures Successful([t] + rest) == Successful([t]) + Successful(rest)
  {
    var s := [t] + rest;
    assert s[0] == t && s[1..] == rest;
    var h := if IsReference(t) then [t] else [];
    assert Successful(s) == h + Successful(rest);
    assert [t][1..] == [];
    assert Successful([t]) == h + Successful([]);
  }

  /** A single trace is a reference exactly when it is scored at least 0.7. */
  lemma SuccessfulSingle(t: Trace)
    ensures Successful([t]) == if IsReference(t) then [t] else []
  {
    assert [t][1..] == [];
  }

  /** Some reference trace has a step called `name`. */
  predicate Referenced(successful: seq<Trace>, name: string)
  {
    exists i :: 0 <= i < |successful| && name in Names(successful[i].steps)
  }

  lemma ReferencedCons(successful: seq<Trace>, name: string)
    requires successful != []
    ensures Referenced(successful, name)
            <==> name in Names(successful[0].steps) || Referenced(successful[1..], name)
  {
    if Referenced(successful[1..], name) {
      var i :| 0 <= i < |successful[1..]| && name in Names(successful[1..][i].steps);
      assert successful[1..][i] == successful[i + 1];
    }
    if Referenced(successful, name) && name !in Names(successful[0].steps) {
      var i :| 0 <= i < |successful| && name in Names(successful[i].steps);
      assert i > 0 && successful[1..][i - 1] == successful[i];
    }
  }

  /** Output lengths of the first `name` step of each reference trace that has one. */
  function SuccessLengths(o: Oracles, successful: seq<Trace>, name: string): (r: seq<real>)
    ensures |r| == CountWith(successful, name) && |r| <= |successful|
    ensures r != [] <==> Referenced(successful, name)
    ensures forall i :: 0 <= i < |r| ==> r[i] >= 0.0
  {
    if successful == [] then []
    else
      var rest := SuccessLengths(o, successful[1..], name);
      ReferencedCons(successful, name);
      match FindStep(successful[0].steps, name)
      case Some(m) => [OutputLength(o, m) as real] + rest
      case None => rest
  }

  /**
   * The `i`-th reference length comes from the `i`-th reference trace holding the step:
   * it is the output length of that trace's first step called `name`.
   */
  lemma {:induction false} SuccessLengthAt(o: Oracles, successful: seq<Trace>, name: string, i: nat)
    returns (p: nat)
    requires i < |SuccessLengths(o, successful, name)|
    ensures p < |successful| && FindStep(successful[p].steps, name).Some?
    ensures SuccessLengths(o, successful, name)[i]
            == OutputLength(o, FindStep(successful[p].steps, name).value) as real
    ensures CountWith(successful[..p], name) == i
  {
    var rest := successful[1..];
    match FindStep(successful[0].steps, name)
    case Some(m) =>
      assert SuccessLengths(o, successful, name) == [OutputLength(o, m) as real] + SuccessLengths(o, rest, name);
      if i == 0 {
        p := 0;
        assert successful[..0] == [];
      } else {
        var q := SuccessLengthAt(o, rest, name, i - 1);
        p := q + 1;
        CountWithPrefix(successful, name, q);
        assert rest[q] == successful[p];
      }
    case None =>
      assert SuccessLengths(o, successful, name) == SuccessLengths(o, rest, name);
      var q := SuccessLengthAt(o, rest, name, i);
      p := q + 1;
      CountWithPrefix(successful, name, q);
      assert rest[q] == successful[p];
  }

  /** `impact.effect_size if impact else 0.1`. */
  function CausalWeight(g: CausalGraph, name: string): (w: real)
    ensures GetImpact(g, name).None? ==> w == DefaultWeight
    ensures GetImpact(g, name).Some? ==> w == GetImpact(g, name).value.effectSize
  {
    match GetImpact(g, name)
    case Some(imp) => imp.effectSize
    case None => DefaultWeight
  }

  /** `abs(failed_len - mean_success) / max(std_success, 1)`. */
  function Deviation(o: Oracles, step: Step, lengths: seq<real>): (d: real)
    requires lengths != []
    ensures d >= 0.0
    ensures d * Max(o.std(lengths), 1.0) == Abs(OutputLength(o, step) as real - Mean(lengths))
    ensures o.std(lengths) <= 1.0 ==> d == Abs(OutputLength(o, step) as real - Mean(lengths))
  {
    var m := Max(o.std(lengths), 1.0);
    DivideThenScale(Abs(OutputLength(o, step) as real - Mean(lengths)), m);
    Abs(OutputLength(o, step) as real - Mean(lengths)) / m
  }

  /** The unrounded z-score of a step against the reference lengths, error bonus included. */
  function ZScore(o: Oracles, step: Step, lengths: seq<real>): (z: real)
    requires lengths != []
    ensures z >= 0.0
    ensures ErrorTruthy(step) ==> z == Deviation(o, step, lengths) + ErrorBonus
    ensures !ErrorTruthy(step) ==> z == Deviation(o, step, lengths)
  {
    var z0 := Deviation(o, step, lengths);
    if ErrorTruthy(step) then z0 + ErrorBonus else z0
  }

  /**
   * One iteration of the backward walk: `None` for a step no reference trace has,
   * otherwise its deviation score and evidence.
   */
  function ScoreStep(o: Oracles, g: CausalGraph, successful: seq<Trace>, step: Step): (r: Option<StepScore>)
    ensures r.Some? <==> Referenced(successful, step.name)
    ensures r.Some? ==> r.value.name == step.name
    ensures r.Some? ==> r.value.evidence.hasError == HasError(step)
    ensures r.Some? ==> r.value.evidence.failedOutputLength == OutputLength(o, step)
    ensures r.Some? ==>
      var lengths := SuccessLengths(o, successful, step.name);
      && lengths != []
      && r.value.score == Product(ZScore(o, step, lengths), CausalWeight(g, step.name))
      && r.value.evidence.meanSuccessfulLength == Round(Mean(lengths), 1)
      && r.value.evidence.zScore == Round(ZScore(o, step, lengths), 2)
      && r.value.evidence.causalWeight == Round(CausalWeight(g, step.name), 3)
  {
    var lengths := SuccessLengths(o, successful, step.name);
    if lengths == [] then None
    else
      var z := ZScore(o, step, lengths);
      var w := CausalWeight(g, step.name);
      Some(StepScore(step.name, Product(z, w),
        Evidence(OutputLength(o, step), Round(Mean(lengths), 1), Round(z, 2), Round(w, 3), HasError(step))))
  }

  /** `ScoreStep` against fixed references, as a function of the step alone. */
  function Scorer(o: Oracles, g: CausalGraph, successful: seq<Trace>): Step -> Option<StepScore>
  {
    step => ScoreStep(o, g, successful, step)
  }

  /** `step_scores` after the loop over `reversed(failed_trace.steps)`. */
  function ScoresLatestFirst(o: Oracles, g: CausalGraph, successful: seq<Trace>, steps: seq<Step>): seq<StepScore>
  {
    FilterMapReversed(steps, Scorer(o, g, successful), |steps|)
  }

  /** The failure condition text for the chosen step, decided on its rounded evidence. */
  function Describe(top: StepScore): (r: string)
    ensures top.evidence.hasError ==> r == ThrewErrorText(top.name)
    ensures !top.evidence.hasError && top.evidence.zScore > 2.0 ==> r == DeviatedText(top.name, top.evidence.zScore)
    ensures !top.evidence.hasError && top.evidence.zScore <= 2.0 ==> r == ContributedText(top.name)
  {
    if top.evidence.hasError then ThrewErrorText(top.name)
    else if top.evidence.zScore > 2.0 then DeviatedText(top.name, top.evidence.zScore)
    else ContributedText(top.name)
  }

  /** `attribute_failure(failed_trace, causal_graph, all_traces)`. */
  function AttributeFailure(o: Oracles, failed: Trace, g: CausalGraph, all: seq<Trace>): (r: RootCause)
    ensures r.traceId == failed.traceId && r.suggestedFix == ""
    ensures Successful(all) == [] ==>
      && r.failureCondition == NoReferenceText
      && r.rootStep == (if failed.steps == [] then "unknown" else failed.steps[0].name)
      && r.confidence == 0.0 && r.evidence.None?
  {
    var successful := Successful(all);
    if successful == [] then
      RootCause(failed.traceId, if failed.steps == [] then "unknown" else failed.steps[0].name,
                NoReferenceText, 0.0, None, "")
    else
      var scores := ScoresLatestFirst(o, g, successful, failed.steps);
      if scores == [] then RootCause(failed.traceId, "unknown", UndeterminedText, 0.0, None, "")
      else
        var top := SortDesc(scores, ScoreKey)[0];
        RootCause(failed.traceId, top.name, Describe(top),
                  Round(Min(top.score / ConfidenceScale, 1.0), 3), Some(top.evidence), "")
  }

  /** Step `p` of the failed trace has a namesake in some reference trace, so it is scored. */
  predicate Scores(failed: Trace, all: seq<Trace>, p: int)
  {
    0 <= p < |failed.steps| && Referenced(Successful(all), failed.steps[p].name)
  }

  function ScoreAt(o: Oracles, g: CausalGraph, all: seq<Trace>, failed: Trace, p: int): real
    requires Scores(failed, all, p)
  {
    ScoreStep(o, g, Successful(all), failed.steps[p]).value.score
  }

  // ---------------------------------------------------------------------------
  // Properties

  /**
   * With reference traces present but no step of the failed trace found in any of them,
   * the root step is "unknown" and there is no evidence.
   */
  lemma UndeterminedWhenNothingScores(o: Oracles, failed: Trace, g: CausalGraph, all: seq<Trace>)
    requires Successful(all) != []
    requires forall p :: 0 <= p < |failed.steps| ==> !Scores(failed, all, p)
    ensures var r := AttributeFailure(o, failed, g, all);
      r.rootStep == "unknown" && r.failureCondition == UndeterminedText
      && r.confidence == 0.0 && r.evidence.None?
  {
    var f := Scorer(o, g, Successful(all));
    forall p | 0 <= p < |failed.steps|
      ensures f(failed.steps[p]).None?
    {
      assert !Scores(failed, all, p);
    }
    NoDefinedPositions(failed.steps, f, |failed.steps|);
  }

  /**
   * The root cause is a step with the highest deviation score; among equal scores the
   * latest step wins, because the walk is backwards and the sort is stable. The
   * evidence and the condition are that step's.
   */
  lemma RootIsLatestBest(o: Oracles, failed: Trace, g: CausalGraph, all: seq<Trace>, q: int)
    returns (p: nat)
    requires Successful(all) != []
    requires Scores(failed, all, q)
    ensures Scores(failed, all, p)
    ensures var r := AttributeFailure(o, failed, g, all);
      var top := ScoreStep(o, g, Successful(all), failed.steps[p]).value;
      && r.rootStep == failed.steps[p].name && r.evidence == Some(top.evidence)
      && r.failureCondition == Describe(top)
      && r.confidence == Round(Min(top.score / ConfidenceScale, 1.0), 3)
    ensures forall k :: Scores(failed, all, k) ==> ScoreAt(o, g, all, failed, k) <= ScoreAt(o, g, all, failed, p)
    ensures forall k :: p < k && Scores(failed, all, k) ==> ScoreAt(o, g, all, failed, k) < ScoreAt(o, g, all, failed, p)
  {
    var successful := Successful(all);
    var f := Scorer(o, g, successful);
    assert f(failed.steps[q]).Some?;
    p := BestOfReversed(failed.steps, f, ScoreKey, q);
    var scores := ScoresLatestFirst(o, g, successful, failed.steps);
    var top := SortDesc(scores, ScoreKey)[0];
    assert top == ScoreStep(o, g, successful, failed.steps[p]).value;
    assert AttributeFailure(o, failed, g, all)
        == RootCause(failed.traceId, top.name, Describe(top),
                     Round(Min(top.score / ConfidenceScale, 1.0), 3), Some(top.evidence), "");
    forall k | Scores(failed, all, k)
      ensures ScoreAt(o, g, all, failed, k) <= ScoreAt(o, g, all, failed, p)
      ensures p < k ==> ScoreAt(o, g, all, failed, k) < ScoreAt(o, g, all, failed, p)
    {
      assert f(failed.steps[k]).Some?;
    }
  }

  /** The confidence lies in [0, 1] when the graph's effect sizes are non-negative. */
  lemma ConfidenceInUnitInterval(o: Oracles, failed: Trace, g: CausalGraph, all: seq<Trace>)
    requires forall i :: 0 <= i < |g.stepImpacts| ==> g.stepImpacts[i].effectSize >= 0.0
    ensures 0.0 <= AttributeFailure(o, failed, g, all).confidence <= 1.0
  {
    var r := AttributeFailure(o, failed, g, all);
    if r.evidence.Some? {
      var successful := Successful(all);
      var f := Scorer(o, g, successful);
      var ps := DefinedPositions(failed.steps, f, |failed.steps|);
      var q := ps[0];
      var p := RootIsLatestBest(o, failed, g, all, q);
      var step := failed.steps[p];
      ScoreIsNonNegative(o, g, successful, step);
      RoundUnitInterval(Min(ScoreAt(o, g, all, failed, p) / ConfidenceScale, 1.0), 3);
    }
  }

  lemma ScoreIsNonNegative(o: Oracles, g: CausalGraph, successful: seq<Trace>, step: Step)
    requires forall i :: 0 <= i < |g.stepImpacts| ==> g.stepImpacts[i].effectSize >= 0.0
    requires Referenced(successful, step.name)
    ensures ScoreStep(o, g, successful, step).value.score >= 0.0
  {
    var lengths := SuccessLengths(o, successful, step.name);
    var w := CausalWeight(g, step.name);
    assert w >= 0.0;
    var z := ZScore(o, step, lengths);
    assert ScoreStep(o, g, successful, step).value.score == Product(z, w);
  }

  /** A root score of at least 5 gives confidence exactly 1. */
  lemma ConfidenceSaturates(o: Oracles, failed: Trace, g: CausalGraph, all: seq<Trace>, q: int)
    requires Successful(all) != [] && Scores(failed, all, q)
    requires ScoreAt(o, g, all, failed, q) >= ConfidenceScale
    ensures AttributeFailure(o, failed, g, all).confidence == 1.0
  {
    var p := RootIsLatestBest(o, failed, g, all, q);
    FullConfidence(ScoreAt(o, g, all, failed, p));
  }

  lemma FullConfidence(score: real)
    requires score >= ConfidenceScale
    ensures Round(Min(score / ConfidenceScale, 1.0), 3) == 1.0
  {
    assert Min(score / ConfidenceScale, 1.0) == 1.0;
    RoundExact(1000, 3);
    assert 1000 as real / Pow10(3) as real == 1.0;
  }

  /**
   * An empty error string gets no z-score bonus, yet the evidence reports an error and
   * the condition says the step threw one.
   */
  lemma EmptyErrorNoBonusButThrew(o: Oracles, g: CausalGraph, successful: seq<Trace>, step: Step)
    requires step.error == Some("")
    requires SuccessLengths(o, successful, step.name) != []
    ensures var s := ScoreStep(o, g, successful, step).value;
      var lengths := SuccessLengths(o, successful, step.name);
      && s.score == Product(Deviation(o, step, lengths), CausalWeight(g, step.name))
      && s.evidence.hasError
      && Describe(s) == ThrewErrorText(step.name)
  {
  }

  /**
   * The condition is decided on the rounded z-score: an unrounded z of 2.004 is stored
   * as 2.0, which is not above 2, so the step is only said to have contributed.
   */
  lemma RoundedZDecidesCondition()
    ensures var e := Evidence(10, 5.0, Round(2.004, 2), 0.1, false);
      2.004 > 2.0 && Describe(StepScore("generate", 0.2004, e)) == ContributedText("generate")
  {
    assert RoundHalfEven(2.004 * 100.0) == 200;
    assert Pow10(2) == 100;
    assert Round(2.004, 2) == 2.0;
  }

  // ---------------------------------------------------------------------------
  // All failures

  /** `[t for t in traces if t.is_failure]`. */
  function Failed(ts: seq<Trace>): (r: seq<Trace>)
    ensures |r| <= |ts|
    ensures forall i :: 0 <= i < |r| ==> IsFailure(r[i])
  {
    if ts == [] then []
    else
      var rest := Failed(ts[1..]);
      if IsFailure(ts[0]) then [ts[0]] + rest else rest
  }

  /** A trace is among the failed ones exactly when it is one of the traces and fails. */
  lemma {:induction false} FailedMember(ts: seq<Trace>, t: Trace)
    ensures t in Failed(ts) <==> t in ts && IsFailure(t)
  {
    if ts != [] {
      FailedMember(ts[1..], t);
      assert ts == [ts[0]] + ts[1..];
      FailedCons(ts[0], ts[1..]);
      FailedSingle(ts[0]);
    }
  }

  /** The failure filter keeps trace order and multiplicity: it distributes over concatenation. */
  lemma {:induction false} FailedAppend(a: seq<Trace>, b: seq<Trace>)
    ensures Failed(a + b) == Failed(a) + Failed(b)
  {
    if a != [] {
      var h := Failed([a[0]]);
      assert a + b == [a[0]] + (a[1..] + b);
      assert a == [a[0]] + a[1..];
      FailedCons(a[0], a[1..] + b);
      FailedCons(a[0], a[1..]);
      FailedAppend(a[1..], b);
      assert h + (Failed(a[1..]) + Failed(b)) == (h + Failed(a[1..])) + Failed(b);
    } else {
      assert a + b == b;
    }
  }

  lemma FailedCons(t: Trace, rest: seq<Trace>)
    ensures Failed([t] + rest) == Failed([t]) + Failed(rest)
  {
    var s := [t] + rest;
    assert s[0] == t && s[1..] == rest;
    var h := if IsFailure(t) then [t] else [];
    assert Failed(s) == h + Failed(rest);
    assert [t][1..] == [];
    assert Failed([t]) == h + Failed([]);
  }

  /** A single trace is kept exactly when it fails. */
  lemma FailedSingle(t: Trace)
    ensures Failed([t]) == if IsFailure(t) then [t] else []
  {
    assert [t][1..] == [];
  }

  function AttributeEach(o: Oracles, failed: seq<Trace>, g: CausalGraph, all: seq<Trace>): (r: seq<RootCause>)
    ensures |r| == |failed|
    ensures forall i :: 0 <= i < |r| ==> r[i] == AttributeFailure(o, failed[i], g, all)
  {
    if failed == [] then [] else [AttributeFailure(o, failed[0], g, all)] + AttributeEach(o, failed[1..], g, all)
  }

  /**
   * `attribute_failures(traces, causal_graph)`: one root cause per failing trace, in
   * trace order, each carrying that trace's id.
   */
  function AttributeFailures(o: Oracles, traces: seq<Trace>, g: CausalGraph): (r: seq<RootCause>)
    ensures |r| == |Failed(traces)|
    ensures forall i :: 0 <= i < |r| ==> r[i].traceId == Failed(traces)[i].traceId
    ensures forall i :: 0 <= i < |r| ==> IsFailure(Failed(traces)[i])
    ensures forall i :: 0 <= i < |r| ==> r[i] == AttributeFailure(o, Failed(traces)[i], g, traces)
  {
    AttributeEach(o, Failed(traces), g, traces)
  }
}

=== FILE: conditions.dfy ===
/**
 * Failure-condition detection (`detect_failure_conditions`): split the traces that ran
 * the root step into failing and non-failing ones, and for each numeric feature of the
 * root step propose a threshold halfway between the two group means.
 */
module Conditions {
  import opened Wrappers
  import opened Numeric
  import opened Seqs
  import opened Values
  import opened Host
  import opened Traces
  import opened Discovery

  /** The four features `_extract_features` produces. */
  datatype FeatureKey = InputLength | OutputLength | LatencyMs | QueryLength

  /** All feature keys; `detect_failure_conditions` iterates them in set order, which Python does not fix. */
  const AllKeys: seq<FeatureKey> := [InputLength, OutputLength, LatencyMs, QueryLength]

  function KeyName(k: FeatureKey): string
  {
    match k
    case InputLength => "input_length"
    case OutputLength => "output_length"
    case LatencyMs => "latency_ms"
    case QueryLength => "query_length"
  }

  /** The feature dict of one execution of the root step; every entry is numeric. */
  datatype Features = Features(inputLength: nat, outputLength: nat, latencyMs: real, queryLength: nat)

  function Feature(f: Features, k: FeatureKey): real
  {
    match k
    case InputLength => f.inputLength as real
    case OutputLength => f.outputLength as real
    case LatencyMs => f.latencyMs
    case QueryLength => f.queryLength as real
  }

  /** Key fallback for a step's input text: "query", then "text", then "input". */
  const InputKeys: seq<string> := ["query", "text", "input"]

  /** Key fallback for a trace's query text: "query", then "input". */
  const QueryKeys: seq<string> := ["query", "input"]

  /** `_extract_features(step, trace)`. */
  function ExtractFeatures(o: Oracles, step: Step, trace: Trace): (f: Features)
    ensures f.outputLength == Traces.OutputLength(o, step)
    ensures f.latencyMs == step.latencyMs
  {
    Features(
      |Str(o, Lookup(step.inputs, InputKeys, VStr("")))|,
      Traces.OutputLength(o, step),
      step.latencyMs,
      |Str(o, Lookup(trace.context, QueryKeys, VStr("")))|)
  }

  /** The input text falls back from "query" to "text" to "input", and is empty without them. */
  lemma InputLengthFallback(o: Oracles, step: Step, trace: Trace)
    ensures "query" in step.inputs ==>
              ExtractFeatures(o, step, trace).inputLength == |Str(o, step.inputs["query"])|
    ensures "query" !in step.inputs && "text" in step.inputs ==>
              ExtractFeatures(o, step, trace).inputLength == |Str(o, step.inputs["text"])|
    ensures "query" !in step.inputs && "text" !in step.inputs && "input" in step.inputs ==>
              ExtractFeatures(o, step, trace).inputLength == |Str(o, step.inputs["input"])|
    ensures "query" !in step.inputs && "text" !in step.inputs && "input" !in step.inputs ==>
              ExtractFeatures(o, step, trace).inputLength == 0
  {
    assert InputKeys[0] == "query" && InputKeys[1] == "text" && InputKeys[2] == "input";
  }

  /** The query text falls back from the context's "query" to its "input", and is empty without them. */
  lemma QueryLengthFallback(o: Oracles, step: Step, trace: Trace)
    ensures "query" in trace.context ==>
              ExtractFeatures(o, step, trace).queryLength == |Str(o, trace.context["query"])|
    ensures "query" !in trace.context && "input" in trace.context ==>
              ExtractFeatures(o, step, trace).queryLength == |Str(o, trace.context["input"])|
    ensures "query" !in trace.context && "input" !in trace.context ==>
              ExtractFeatures(o, step, trace).queryLength == 0
  {
    assert QueryKeys[0] == "query" && QueryKeys[1] == "input";
  }

  /** The features of the root step split by whether its trace failed. */
  datatype Groups = Groups(failed: seq<Features>, success: seq<Features>)

  /** No trace that executes `root` has failed. */
  predicate NoFailingRun(ts: seq<Trace>, root: string)
  {
    forall i :: 0 <= i < |ts| && FindStep(ts[i].steps, root).Some? ==> !IsFailure(ts[i])
  }

  /** Every trace that executes `root` has failed. */
  predicate NoPassingRun(ts: seq<Trace>, root: string)
  {
    forall i :: 0 <= i < |ts| && FindStep(ts[i].steps, root).Some? ==> IsFailure(ts[i])
  }

  lemma RunsCons(ts: seq<Trace>, root: string)
    requires ts != []
    ensures NoFailingRun(ts, root)
            <==> (FindStep(ts[0].steps, root).Some? ==> !IsFailure(ts[0])) && NoFailingRun(ts[1..], root)
    ensures NoPassingRun(ts, root)
            <==> (FindStep(ts[0].steps, root).Some? ==> IsFailure(ts[0])) && NoPassingRun(ts[1..], root)
  {
    assert forall i :: 1 <= i < |ts| ==> ts[i] == ts[1..][i - 1];
  }

  /** Trace `t` runs `root`, and has failed or not as `failing` says. */
  predicate Joins(t: Trace, root: string, failing: bool)
  {
    FindStep(t.steps, root).Some? && IsFailure(t) == failing
  }

  /** The number of traces that run `root` and whose failure status is `failing`. */
  function RunsWith(ts: seq<Trace>, root: string, failing: bool): nat
  {
    if ts == [] then 0
    else (if Joins(ts[0], root, failing) then 1 else 0)
         + RunsWith(ts[1..], root, failing)
  }

  /** The failing group, or the other one. */
  function Group(g: Groups, failing: bool): seq<Features>
  {
    if failing then g.failed else g.success
  }

  /** The first loop of `detect_failure_conditions`. */
  function Partition(o: Oracles, root: string, ts: seq<Trace>): (g: Groups)
    ensures |g.failed| + |g.success| == CountWith(ts, root)
    ensures |g.failed| == RunsWith(ts, root, true) && |g.success| == RunsWith(ts, root, false)
    ensures g.failed == [] <==> NoFailingRun(ts, root)
    ensures g.success == [] <==> NoPassingRun(ts, root)
  {
    if ts == [] then Groups([], [])
    else
      var rest := Partition(o, root, ts[1..]);
      RunsCons(ts, root);
      match FindStep(ts[0].steps, root)
      case None => rest
      case Some(step) =>
        var f := ExtractFeatures(o, step, ts[0]);
        if IsFailure(ts[0]) then Groups([f] + rest.failed, rest.success)
        else Groups(rest.failed, [f] + rest.success)
  }

  /** One group of the first loop, built on its own: the features of a trace that joins it. */
  function RunOf(o: Oracles, root: string, failing: bool): Trace -> Option<Features>
  {
    t => if Joins(t, root, failing) then Some(ExtractFeatures(o, FindStep(t.steps, root).value, t)) else None
  }

  /** One step of the first loop: the first trace joins the group its failure status selects. */
  lemma PartitionCons(o: Oracles, root: string, ts: seq<Trace>, failing: bool)
    requires ts != []
    ensures Joins(ts[0], root, failing) ==>
      Group(Partition(o, root, ts), failing)
      == [ExtractFeatures(o, FindStep(ts[0].steps, root).value, ts[0])] + Group(Partition(o, root, ts[1..]), failing)
    ensures !Joins(ts[0], root, failing) ==>
      Group(Partition(o, root, ts), failing) == Group(Partition(o, root, ts[1..]), failing)
  {
  }

  lemma {:induction false} PartitionRuns(o: Oracles, root: string, ts: seq<Trace>, failing: bool)
    ensures Group(Partition(o, root, ts), failing) == FilterMap(ts, RunOf(o, root, failing))
  {
    if ts != [] {
      PartitionRuns(o, root, ts[1..], failing);
      PartitionCons(o, root, ts, failing);
      var f := RunOf(o, root, failing);
      assert FilterMap(ts, f) == (if f(ts[0]).Some? then [f(ts[0]).value] else []) + FilterMap(ts[1..], f);
    }
  }

  /**
   * The `i`-th entry of a group holds the features of the `i`-th trace, in trace order,
   * that runs the root step and fails (for the failing group) or does not (for the other).
   */
  lemma PartitionAt(o: Oracles, root: string, ts: seq<Trace>, failing: bool, i: nat)
    returns (p: nat)
    requires i < |Group(Partition(o, root, ts), failing)|
    ensures p < |ts| && FindStep(ts[p].steps, root).Some? && IsFailure(ts[p]) == failing
    ensures Group(Partition(o, root, ts), failing)[i]
            == ExtractFeatures(o, FindStep(ts[p].steps, root).value, ts[p])
    ensures RunsWith(ts[..p], root, failing) == i
  {
    PartitionRuns(o, root, ts, failing);
    p := FilterMapSource(ts, RunOf(o, root, failing), i);
    PartitionRuns(o, root, ts[..p], failing);
    assert |Group(Partition(o, root, ts[..p]), failing)| == i;
  }


  /** One feature across a group, in group order. */
  function Column(fs: seq<Features>, k: FeatureKey): (vals: seq<real>)
    ensures |vals| == |fs| && forall i :: 0 <= i < |fs| ==> vals[i] == Feature(fs[i], k)
  {
    if fs == [] then [] else [Feature(fs[0], k)] + Column(fs[1..], k)
  }

  /** `v > t` for an upper-threshold condition, `v < t` for a lower one. */
  predicate Beyond(v: real, t: real, upper: bool)
  {
    if upper then v > t else v < t
  }

  /** `sum(1 for v in vals if v > t)` (or `<`). */
  function CountBeyond(vals: seq<real>, t: real, upper: bool): (n: nat)
    ensures n <= |vals|
  {
    if vals == [] then 0
    else CountBeyond(vals[..|vals| - 1], t, upper) + (if Beyond(vals[|vals| - 1], t, upper) then 1 else 0)
  }

  /** The positions of `vals` on the far side of the threshold. */
  function BeyondPositions(vals: seq<real>, t: real, upper: bool): set<nat>
  {
    set i: nat | i < |vals| && Beyond(vals[i], t, upper)
  }

  /** The count is the number of positions beyond the threshold. */
  lemma {:induction false} CountBeyondIsSize(vals: seq<real>, t: real, upper: bool)
    ensures CountBeyond(vals, t, upper) == |BeyondPositions(vals, t, upper)|
    decreases |vals|
  {
    if vals != [] {
      var init := vals[..|vals| - 1];
      CountBeyondIsSize(init, t, upper);
      if Beyond(vals[|vals| - 1], t, upper) {
        assert BeyondPositions(vals, t, upper) == BeyondPositions(init, t, upper) + {|vals| - 1};
      } else {
        assert BeyondPositions(vals, t, upper) == BeyondPositions(init, t, upper);
      }
    }
  }

  /** A group whose mean is beyond a threshold has at least one value beyond it. */
  lemma MeanBeyondHasWitness(vals: seq<real>, t: real, upper: bool)
    requires vals != [] && Beyond(Mean(vals), t, upper)
    ensures CountBeyond(vals, t, upper) >= 1
  {
    MeanBeyondSum(vals, t);
    if upper {
      SumAboveHasWitness(vals, t);
    } else {
      SumBelowHasWitness(vals, t);
    }
    var i :| 0 <= i < |vals| && Beyond(vals[i], t, upper);
    CountBeyondIsSize(vals, t, upper);
    assert i in BeyondPositions(vals, t, upper);
  }

  /** A `FailureCondition`. */
  datatype FailureCondition = FailureCondition(
    stepName: string,
    condition: string,
    affectedTraces: nat,
    totalFailed: nat,
    confidence: real)

  /** Fewest values per group for a feature to be considered. */
  const MinGroupSize: nat := 3

  /** Smallest gap between the group means worth reporting. */
  const MinMeanGap: real := 0.01

  /** Smallest share of failing values beyond the threshold for a condition to be kept. */
  const MinConfidence: real := 0.5

  /** `affected / max(len(failed_vals), 1)`. */
  function Share(affected: nat, total: nat): (c: real)
    ensures total > 0 && affected <= total ==> 0.0 <= c <= 1.0
    ensures total > 0 ==> (c >= MinConfidence <==> 2 * affected >= total)
  {
    var d := if total > 1 then total else 1;
    ShareBounds(affected, d);
    affected as real / d as real
  }

  lemma ShareBounds(a: nat, d: nat)
    requires d > 0
    ensures a <= d ==> 0.0 <= a as real / d as real <= 1.0
    ensures a as real / d as real >= MinConfidence <==> 2 * a >= d
  {
    var x, y := a as real, d as real;
    DivideMonotone(0.0, x, y);
    if a <= d {
      DivideMonotone(x, y, y);
      assert y / y == 1.0;
    }
    assert (y / 2.0) / y == MinConfidence;
    if 2 * a >= d {
      DivideMonotone(y / 2.0, x, y);
    } else {
      DivideStrict(x, y / 2.0, y);
    }
  }

  /** The condition text `f"{key} > {threshold:.1f}"` (or `<`). */
  function ConditionText(k: FeatureKey, upper: bool, threshold: real): string
  {
    KeyName(k) + (if upper then " > " else " < ") + Fixed1(threshold)
  }

  /** Both groups are large enough and their means far enough apart to compare. */
  predicate Separated(fvals: seq<real>, svals: seq<real>)
  {
    |fvals| >= MinGroupSize && |svals| >= MinGroupSize && Abs(Mean(fvals) - Mean(svals)) >= MinMeanGap
  }

  /** The direction of a condition: whether failing executions have the larger mean. */
  function IsUpper(fvals: seq<real>, svals: seq<real>): bool
    requires fvals != [] && svals != []
  {
    Mean(fvals) > Mean(svals)
  }

  /** The threshold of a condition: the midpoint of the two means. */
  function Midpoint(fvals: seq<real>, svals: seq<real>): real
    requires fvals != [] && svals != []
  {
    (Mean(fvals) + Mean(svals)) / 2.0
  }

  /** One iteration of the feature loop: the condition for feature `k`, if it qualifies. */
  function ConditionFor(root: string, k: FeatureKey, fvals: seq<real>, svals: seq<real>): (r: Option<FailureCondition>)
    ensures r.Some? ==> Separated(fvals, svals)
    ensures r.Some? ==>
      var upper, t := IsUpper(fvals, svals), Midpoint(fvals, svals);
      && r.value.stepName == root
      && r.value.condition == ConditionText(k, upper, t)
      && r.value.totalFailed == |fvals|
      && r.value.affectedTraces == CountBeyond(fvals, t, upper)
      && 2 * r.value.affectedTraces >= r.value.totalFailed
      && r.value.confidence == Round(Share(r.value.affectedTraces, r.value.totalFailed), 3)
    ensures Separated(fvals, svals)
            && 2 * CountBeyond(fvals, Midpoint(fvals, svals), IsUpper(fvals, svals)) >= |fvals|
            ==> r.Some?
  {
    if !Separated(fvals, svals) then None
    else
      var upper, t := IsUpper(fvals, svals), Midpoint(fvals, svals);
      var affected := CountBeyond(fvals, t, upper);
      var c := Share(affected, |fvals|);
      if c >= MinConfidence then
        Some(FailureCondition(root, ConditionText(k, upper, t), affected, |fvals|, Round(c, 3)))
      else None
  }

  /** The loop body as a function of the key, for fixed groups. */
  function ConditionOf(root: string, groups: Groups): FeatureKey -> Option<FailureCondition>
  {
    k => ConditionFor(root, k, Column(groups.failed, k), Column(groups.success, k))
  }

  function ConfidenceKey(c: FailureCondition): real
  {
    c.confidence
  }

  /**
   * `detect_failure_conditions(root_step, traces)`, with the keys visited in `keyOrder`,
   * which may be any ordering of the four features.
   */
  function DetectFailureConditions(o: Oracles, root: string, traces: seq<Trace>, keyOrder: seq<FeatureKey>)
    : (r: seq<FailureCondition>)
    requires multiset(keyOrder) == multiset(AllKeys)
    ensures |r| <= |AllKeys|
    ensures SortedDesc(r, ConfidenceKey)
  {
    var groups := Partition(o, root, traces);
    if groups.failed == [] || groups.success == [] then []
    else SortDesc(FilterMap(keyOrder, ConditionOf(root, groups)), ConfidenceKey)
  }

  // ---------------------------------------------------------------------------
  // Properties

  /** Without both a failing and a non-failing execution of the root step there is nothing to compare. */
  lemma NothingWithoutBothGroups(o: Oracles, root: string, traces: seq<Trace>, keyOrder: seq<FeatureKey>)
    requires multiset(keyOrder) == multiset(AllKeys)
    requires NoFailingRun(traces, root) || NoPassingRun(traces, root)
    ensures DetectFailureConditions(o, root, traces, keyOrder) == []
  {
  }

  /**
   * A reported condition names the root step and one feature with a direction and
   * threshold, has at least one affected trace, and has confidence in [0.5, 1].
   */
  lemma ConditionBounds(root: string, k: FeatureKey, fvals: seq<real>, svals: seq<real>, c: FailureCondition)
    returns (upper: bool, t: real)
    requires ConditionFor(root, k, fvals, svals) == Some(c)
    ensures c.stepName == root && c.condition == ConditionText(k, upper, t)
    ensures 1 <= c.affectedTraces <= c.totalFailed
    ensures c.totalFailed >= MinGroupSize
    ensures MinConfidence <= c.confidence <= 1.0
  {
    upper := IsUpper(fvals, svals);
    t := Midpoint(fvals, svals);
    var share := Share(c.affectedTraces, c.totalFailed);
    RoundMonotone(MinConfidence, share, 3);
    RoundExact(500, 3);
    assert 500 as real / Pow10(3) as real == MinConfidence;
    RoundUnitInterval(share, 3);
  }

  /**
   * Whenever the means differ, some failing value lies beyond the midpoint, so the
   * affected count is positive even before the confidence filter.
   */
  lemma AffectedIsPositive(fvals: seq<real>, svals: seq<real>)
    requires fvals != [] && svals != [] && Mean(fvals) != Mean(svals)
    ensures CountBeyond(fvals, Midpoint(fvals, svals), IsUpper(fvals, svals)) >= 1
  {
    MeanBeyondHasWitness(fvals, Midpoint(fvals, svals), IsUpper(fvals, svals));
  }

  /** Every reported condition is the one computed for some feature from the two groups. */
  lemma DetectedFromSomeKey(o: Oracles, root: string, traces: seq<Trace>, keyOrder: seq<FeatureKey>, c: FailureCondition)
    returns (k: FeatureKey)
    requires multiset(keyOrder) == multiset(AllKeys)
    requires c in DetectFailureConditions(o, root, traces, keyOrder)
    ensures var groups := Partition(o, root, traces);
      ConditionFor(root, k, Column(groups.failed, k), Column(groups.success, k)) == Some(c)
  {
    var groups := Partition(o, root, traces);
    var f := ConditionOf(root, groups);
    assert DetectFailureConditions(o, root, traces, keyOrder) == SortDesc(FilterMap(keyOrder, f), ConfidenceKey);
    k := SortedFilterMapSource(keyOrder, f, ConfidenceKey, c);
  }

  /**
   * Every reported condition is about the root step, names one feature with a
   * direction and threshold, has at least one affected trace, and has confidence in
   * [0.5, 1].
   */
  lemma DetectedConditionsShape(o: Oracles, root: string, traces: seq<Trace>, keyOrder: seq<FeatureKey>, c: FailureCondition)
    returns (k: FeatureKey, upper: bool, t: real)
    requires multiset(keyOrder) == multiset(AllKeys)
    requires c in DetectFailureConditions(o, root, traces, keyOrder)
    ensures c.stepName == root
    ensures c.condition == ConditionText(k, upper, t)
    ensures 1 <= c.affectedTraces <= c.totalFailed && MinConfidence <= c.confidence <= 1.0
  {
    var groups := Partition(o, root, traces);
    k := DetectedFromSomeKey(o, root, traces, keyOrder, c);
    upper, t := ConditionBounds(root, k, Column(groups.failed, k), Column(groups.success, k), c);
  }

  /** Every feature key occurs in any iteration order of the keys. */
  lemma KeyPosition(keyOrder: seq<FeatureKey>, k: FeatureKey) returns (j: nat)
    requires multiset(keyOrder) == multiset(AllKeys)
    ensures j < |keyOrder| && keyOrder[j] == k
  {
    assert k in multiset(AllKeys);
    assert k in multiset(keyOrder);
    j :| 0 <= j < |keyOrder| && keyOrder[j] == k;
  }

  /** The conditions kept for two groups include every feature's qualifying condition. */
  lemma ConditionsComplete(root: string, groups: Groups, keyOrder: seq<FeatureKey>, k: FeatureKey)
    requires multiset(keyOrder) == multiset(AllKeys)
    requires ConditionOf(root, groups)(k).Some?
    ensures ConditionOf(root, groups)(k).value in SortDesc(FilterMap(keyOrder, ConditionOf(root, groups)), ConfidenceKey)
  {
    var j := KeyPosition(keyOrder, k);
    SortedFilterMapComplete(keyOrder, ConditionOf(root, groups), ConfidenceKey, j);
  }

  /** With runs on both sides, the report is the sorted qualifying conditions. */
  lemma DetectedWhenBoth(o: Oracles, root: string, traces: seq<Trace>, keyOrder: seq<FeatureKey>)
    requires multiset(keyOrder) == multiset(AllKeys)
    requires !NoFailingRun(traces, root) && !NoPassingRun(traces, root)
    ensures DetectFailureConditions(o, root, traces, keyOrder)
            == SortDesc(FilterMap(keyOrder, ConditionOf(root, Partition(o, root, traces))), ConfidenceKey)
  {
    var groups := Partition(o, root, traces);
    assert groups.failed != [] && groups.success != [];
  }

  /** Completeness: every feature whose condition qualifies is reported, whatever the key order. */
  lemma DetectedComplete(o: Oracles, root: string, traces: seq<Trace>, keyOrder: seq<FeatureKey>,
                         k: FeatureKey, c: FailureCondition)
    requires multiset(keyOrder) == multiset(AllKeys)
    requires !NoFailingRun(traces, root) && !NoPassingRun(traces, root)
    requires var groups := Partition(o, root, traces);
      ConditionFor(root, k, Column(groups.failed, k), Column(groups.success, k)) == Some(c)
    ensures c in DetectFailureConditions(o, root, traces, keyOrder)
  {
    var groups := Partition(o, root, traces);
    DetectedWhenBoth(o, root, traces, keyOrder);
    assert ConditionOf(root, groups)(k) == Some(c);
    ConditionsComplete(root, groups, keyOrder, k);
  }

  /** Distinct features give distinct condition texts: each text starts with its feature's name. */
  lemma ConditionTextKey(k1: FeatureKey, u1: bool, t1: real, k2: FeatureKey, u2: bool, t2: real)
    requires ConditionText(k1, u1, t1) == ConditionText(k2, u2, t2)
    ensures k1 == k2
  {
    assert ConditionText(k1, u1, t1)[0] == KeyName(k1)[0];
    assert ConditionText(k2, u2, t2)[0] == KeyName(k2)[0];
  }

  /** Two features never yield the same condition. */
  lemma ConditionOfInjective(root: string, groups: Groups, k1: FeatureKey, k2: FeatureKey)
    requires ConditionOf(root, groups)(k1).Some?
    requires ConditionOf(root, groups)(k1) == ConditionOf(root, groups)(k2)
    ensures k1 == k2
  {
    var c := ConditionOf(root, groups)(k1).value;
    var u1, t1 := ConditionBounds(root, k1, Column(groups.failed, k1), Column(groups.success, k1), c);
    var u2, t2 := ConditionBounds(root, k2, Column(groups.failed, k2), Column(groups.success, k2), c);
    ConditionTextKey(k1, u1, t1, k2, u2, t2);
  }

  /** The conditions kept for two groups are pairwise distinct. */
  lemma ConditionsNoDup(root: string, groups: Groups, keyOrder: seq<FeatureKey>)
    requires multiset(keyOrder) == multiset(AllKeys)
    ensures NoDup(SortDesc(FilterMap(keyOrder, ConditionOf(root, groups)), ConfidenceKey))
  {
    PermutationNoDup(AllKeys, keyOrder);
    ConditionsDistinct(root, groups, keyOrder);
    SortedFilterMapNoDup(keyOrder, ConditionOf(root, groups), ConfidenceKey);
  }

  /** Over distinct keys, a defined condition is never repeated. */
  lemma ConditionsDistinct(root: string, groups: Groups, keyOrder: seq<FeatureKey>)
    requires NoDup(keyOrder)
    ensures var f := ConditionOf(root, groups);
      forall i, j :: 0 <= i < j < |keyOrder| && f(keyOrder[i]).Some? ==> f(keyOrder[i]) != f(keyOrder[j])
  {
    var f := ConditionOf(root, groups);
    forall i, j | 0 <= i < j < |keyOrder| && f(keyOrder[i]).Some?
      ensures f(keyOrder[i]) != f(keyOrder[j])
    {
      if f(keyOrder[i]) == f(keyOrder[j]) {
        ConditionOfInjective(root, groups, keyOrder[i], keyOrder[j]);
      }
    }
  }

  /** No condition is reported twice. */
  lemma DetectedNoDup(o: Oracles, root: string, traces: seq<Trace>, keyOrder: seq<FeatureKey>)
    requires multiset(keyOrder) == multiset(AllKeys)
    ensures NoDup(DetectFailureConditions(o, root, traces, keyOrder))
  {
    var groups := Partition(o, root, traces);
    if groups.failed != [] && groups.success != [] {
      assert DetectFailureConditions(o, root, traces, keyOrder)
             == SortDesc(FilterMap(keyOrder, ConditionOf(root, groups)), ConfidenceKey);
      ConditionsNoDup(root, groups, keyOrder);
    }
  }

  /**
   * At most one condition per feature: two reported conditions were computed for two
   * different features.
   */
  lemma DetectedOnePerKey(o: Oracles, root: string, traces: seq<Trace>, keyOrder: seq<FeatureKey>, i: nat, j: nat)
    returns (ki: FeatureKey, kj: FeatureKey)
    requires multiset(keyOrder) == multiset(AllKeys)
    requires i < j < |DetectFailureConditions(o, root, traces, keyOrder)|
    ensures var r := DetectFailureConditions(o, root, traces, keyOrder);
      var groups := Partition(o, root, traces);
      && ConditionFor(root, ki, Column(groups.failed, ki), Column(groups.success, ki)) == Some(r[i])
      && ConditionFor(root, kj, Column(groups.failed, kj), Column(groups.success, kj)) == Some(r[j])
      && ki != kj
  {
    var r := DetectFailureConditions(o, root, traces, keyOrder);
    DetectedNoDup(o, root, traces, keyOrder);
    ki := DetectedFromSomeKey(o, root, traces, keyOrder, r[i]);
    kj := DetectedFromSomeKey(o, root, traces, keyOrder, r[j]);
  }

  /** The set iteration order of the keys changes only the order among equal confidences. */
  lemma KeyOrderIrrelevant(o: Oracles, root: string, traces: seq<Trace>, k1: seq<FeatureKey>, k2: seq<FeatureKey>)
    requires multiset(k1) == multiset(AllKeys) && multiset(k2) == multiset(AllKeys)
    ensures multiset(DetectFailureConditions(o, root, traces, k1))
            == multiset(DetectFailureConditions(o, root, traces, k2))
  {
    var groups := Partition(o, root, traces);
    if groups.failed != [] && groups.success != [] {
      var f := ConditionOf(root, groups);
      FilterMapPermutation(k1, k2, f);
      SortDescPermutes(FilterMap(k1, f), ConfidenceKey);
      SortDescPermutes(FilterMap(k2, f), ConfidenceKey);
    }
  }
}

=== FILE: config.dfy ===
/**
 * Settings (`ChainsSettings`): the LLM provider and model, the analysis thresholds,
 * the range each field is validated against, and the resolution of the model name.
 */
module Config {
  import opened Wrappers

  datatype Provider = Ollama | OpenAI | Anthropic | Groq | Mistral | Together

  /** The provider's value as written in settings. */
  function ProviderName(p: Provider): string
  {
    match p
    case Ollama => "ollama"
    case OpenAI => "openai"
    case Anthropic => "anthropic"
    case Groq => "groq"
    case Mistral => "mistral"
    case Together => "together"
  }

  /** Every provider has a default model, and none is empty. */
  function DefaultModel(p: Provider): (m: string)
    ensures m != []
    ensures p == Ollama ==> m == "llama3.1"
  {
    match p
    case Ollama => "llama3.1"
    case OpenAI => "gpt-4o"
    case Anthropic => "claude-3-5-sonnet-20241022"
    case Groq => "llama-3.1-70b-versatile"
    case Mistral => "mistral-large-latest"
    case Together => "meta-llama/Llama-3-70b-chat-hf"
  }

  /** Provider names are distinct, so a setting names at most one provider. */
  lemma ProviderNameInjective(p: Provider, q: Provider)
    requires ProviderName(p) == ProviderName(q)
    ensures p == q
  {
  }

  datatype Settings = Settings(
    provider: Provider,
    model: string,
    temperature: real,
    maxRetries: int,
    minTraces: int,
    significanceLevel: real,
    logLevel: string)

  /** The field constraints the settings class declares. */
  predicate Valid(s: Settings)
  {
    && 0.0 <= s.temperature <= 2.0
    && 1 <= s.maxRetries <= 10
    && 5 <= s.minTraces
    && 0.001 <= s.significanceLevel <= 0.1
  }

  /** Building settings: rejected (a validation error) when a field is out of range. */
  function MakeSettings(provider: Provider, model: string, temperature: real, maxRetries: int,
                        minTraces: int, significanceLevel: real, logLevel: string): (r: Option<Settings>)
    ensures r.Some? <==> (0.0 <= temperature <= 2.0 && 1 <= maxRetries <= 10 && 5 <= minTraces
                          && 0.001 <= significanceLevel <= 0.1)
    ensures r.Some? ==> Valid(r.value) && r.value.provider == provider && r.value.model == model
                        && r.value.temperature == temperature && r.value.maxRetries == maxRetries
                        && r.value.minTraces == minTraces && r.value.significanceLevel == significanceLevel
                        && r.value.logLevel == logLevel
  {
    var s := Settings(provider, model, temperature, maxRetries, minTraces, significanceLevel, logLevel);
    if Valid(s) then Some(s) else None
  }

  /** The defaults, which satisfy the field constraints. */
  function DefaultSettings(): (s: Settings)
    ensures Valid(s)
    ensures s.provider == Ollama && s.model == [] && s.minTraces == 20 && s.significanceLevel == 0.01
  {
    Settings(Ollama, "", 0.3, 3, 20, 0.01, "INFO")
  }

  /** The configured model, or the provider's default when none is set. */
  function BaseModel(s: Settings): (m: string)
    ensures m != []
    ensures s.model != [] ==> m == s.model
    ensures s.model == [] ==> m == DefaultModel(s.provider)
  {
    if s.model != [] then s.model else DefaultModel(s.provider)
  }

  /** `resolved_model`: Ollama models without a namespace get the "ollama/" prefix. */
  function ResolvedModel(s: Settings): (m: string)
    ensures s.provider != Ollama ==> m == BaseModel(s)
    ensures s.provider == Ollama && '/' in BaseModel(s) ==> m == BaseModel(s)
    ensures s.provider == Ollama && '/' !in BaseModel(s) ==> m == "ollama/" + BaseModel(s)
  {
    var base := BaseModel(s);
    if s.provider == Ollama && '/' !in base then "ollama/" + base else base
  }

  /** The resolved name is never empty, and under Ollama it always has a namespace. */
  lemma ResolvedModelShape(s: Settings)
    ensures ResolvedModel(s) != []
    ensures s.provider == Ollama ==> '/' in ResolvedModel(s)
  {
    if s.provider == Ollama && '/' !in BaseModel(s) {
      assert ResolvedModel(s)[6] == '/';
    }
  }

  /** Setting the model to its resolved name resolves to the same name again. */
  lemma ResolvedModelIdempotent(s: Settings)
    ensures ResolvedModel(s.(model := ResolvedModel(s))) == ResolvedModel(s)
  {
    ResolvedModelShape(s);
  }

  /** With the defaults the model is "ollama/llama3.1". */
  lemma DefaultResolvedModel()
    ensures ResolvedModel(DefaultSettings()) == "ollama/llama3.1"
  {
    assert '/' !in "llama3.1";
  }
}

=== FILE: discovery.dfy ===
/**
 * Causal discovery (`discover_step_quality_causation`): for every step name, correlate a
 * per-trace feature of that step with the trace's quality score, and rank the steps by
 * the absolute correlation. This is a correlational heuristic, not causal inference.
 */
module Discovery {
  import opened Wrappers
  import opened Numeric
  import opened Seqs
  import opened Values
  import opened Host
  import opened Traces

  /** Correlation of one step's feature with final quality. */
  datatype StepImpact = StepImpact(
    stepName: string,
    correlation: real,
    pValue: real,
    effectSize: real,
    isSignificant: bool)

  /** The result of one discovery run. */
  datatype CausalGraph = CausalGraph(
    stepImpacts: seq<StepImpact>,
    stepOrder: seq<string>,
    nTraces: nat)

  /** Fewest scored traces, and fewest (feature, quality) pairs per step, that discovery uses. */
  const MinSamples: nat := 5

  /** Standard deviation below which an array counts as constant. */
  const VarianceFloor: real := 0.0000000001

  function EffectKey(s: StepImpact): real
  {
    s.effectSize
  }

  // ---------------------------------------------------------------------------
  // Graph queries

  function FirstImpactIndex(impacts: seq<StepImpact>, name: string): (r: Option<nat>)
    ensures r.Some? ==> r.value < |impacts| && impacts[r.value].stepName == name
    ensures r.Some? ==> forall j :: 0 <= j < r.value ==> impacts[j].stepName != name
    ensures r.None? ==> forall j :: 0 <= j < |impacts| ==> impacts[j].stepName != name
  {
    if impacts == [] then None
    else if impacts[0].stepName == name then Some(0)
    else
      match FirstImpactIndex(impacts[1..], name)
      case Some(i) => Some(i + 1)
      case None => None
  }

  /** `CausalGraph.get_impact`: the first impact recorded for `name`, if any. */
  function GetImpact(g: CausalGraph, name: string): (r: Option<StepImpact>)
    ensures r.None? <==> forall j :: 0 <= j < |g.stepImpacts| ==> g.stepImpacts[j].stepName != name
    ensures r.Some? ==> r.value.stepName == name && r.value in g.stepImpacts
  {
    match FirstImpactIndex(g.stepImpacts, name)
    case Some(i) => Some(g.stepImpacts[i])
    case None => None
  }

  lemma GetImpactIsFirst(g: CausalGraph, name: string, i: nat)
    requires i < |g.stepImpacts| && g.stepImpacts[i].stepName == name
    requires forall j :: 0 <= j < i ==> g.stepImpacts[j].stepName != name
    ensures GetImpact(g, name) == Some(g.stepImpacts[i])
  {
    var k := FirstImpactIndex(g.stepImpacts, name);
    assert k.Some? && k.value == i;
  }

  function FilterSignificant(impacts: seq<StepImpact>): (r: seq<StepImpact>)
    ensures |r| <= |impacts|
    ensures forall i :: 0 <= i < |r| ==> r[i].isSignificant
  {
    if impacts == [] then []
    else (if impacts[0].isSignificant then [impacts[0]] else []) + FilterSignificant(impacts[1..])
  }

  /** An impact is kept exactly when it is present and significant. */
  lemma {:induction false} SignificantMember(impacts: seq<StepImpact>, x: StepImpact)
    ensures x in FilterSignificant(impacts) <==> x in impacts && x.isSignificant
  {
    if impacts != [] {
      SignificantMember(impacts[1..], x);
      assert impacts == [impacts[0]] + impacts[1..];
    }
  }

  /** `CausalGraph.significant_steps`. */
  function SignificantSteps(g: CausalGraph): seq<StepImpact>
  {
    FilterSignificant(g.stepImpacts)
  }

  /** The filter keeps order: filtering a concatenation concatenates the filtered parts. */
  lemma {:induction false} FilterSignificantAppend(a: seq<StepImpact>, b: seq<StepImpact>)
    ensures FilterSignificant(a + b) == FilterSignificant(a) + FilterSignificant(b)
  {
    if a != [] {
      var h := if a[0].isSignificant then [a[0]] else [];
      assert (a + b)[0] == a[0] && (a + b)[1..] == a[1..] + b;
      assert FilterSignificant(a + b) == h + FilterSignificant(a[1..] + b);
      FilterSignificantAppend(a[1..], b);
      assert h + (FilterSignificant(a[1..]) + FilterSignificant(b))
          == (h + FilterSignificant(a[1..])) + FilterSignificant(b);
    } else {
      assert a + b == b;
    }
  }

  // ---------------------------------------------------------------------------
  // Samples

  predicate AllScored(ts: seq<Trace>)
  {
    forall i :: 0 <= i < |ts| ==> ts[i].quality.Some?
  }

  /** `[t for t in traces if t.quality_score is not None]`. */
  function Scored(ts: seq<Trace>): (r: seq<Trace>)
    ensures AllScored(r) && |r| <= |ts|
  {
    if ts == [] then []
    else
      var rest := Scored(ts[1..]);
      if ts[0].quality.Some? then [ts[0]] + rest else rest
  }

  /** The number of positions of `ts` holding a trace with a quality score. */
  function ScoredPositions(ts: seq<Trace>): set<nat>
  {
    set i: nat | i < |ts| && ts[i].quality.Some?
  }

  lemma {:induction false} ScoredAppend(a: seq<Trace>, b: seq<Trace>)
    ensures Scored(a + b) == Scored(a) + Scored(b)
  {
    if a != [] {
      var h := if a[0].quality.Some? then [a[0]] else [];
      assert (a + b)[0] == a[0] && (a + b)[1..] == a[1..] + b;
      assert Scored(a + b) == h + Scored(a[1..] + b);
      assert Scored(a) == h + Scored(a[1..]);
      ScoredAppend(a[1..], b);
      assert h + (Scored(a[1..]) + Scored(b)) == (h + Scored(a[1..])) + Scored(b);
    } else {
      assert a + b == b;
    }
  }

  lemma {:induction false} ScoredCount(ts: seq<Trace>)
    ensures |Scored(ts)| == |ScoredPositions(ts)|
    decreases |ts|
  {
    if ts != [] {
      var init, last := ts[..|ts| - 1], ts[|ts| - 1];
      assert ts == init + [last];
      ScoredAppend(init, [last]);
      ScoredCount(init);
      assert Scored([last]) == (if last.quality.Some? then [last] else []) by {
        assert [last][1..] == [];
      }
      ScoredPositionsSnoc(ts);
    }
  }

  /** Dropping the last trace drops its position, if it had a score. */
  lemma ScoredPositionsSnoc(ts: seq<Trace>)
    requires ts != []
    ensures |ScoredPositions(ts)|
            == |ScoredPositions(ts[..|ts| - 1])| + (if ts[|ts| - 1].quality.Some? then 1 else 0)
  {
    var init := ts[..|ts| - 1];
    var extra: set<nat> := if ts[|ts| - 1].quality.Some? then {|ts| - 1} else {};
    forall i: nat
      ensures i in ScoredPositions(ts) <==> i in ScoredPositions(init) + extra
    {
      if i < |init| {
        assert ts[i] == init[i];
      }
    }
    assert ScoredPositions(ts) == ScoredPositions(init) + extra;
    assert ScoredPositions(init) * extra == {};
  }

  /** The names of all steps of all traces, trace by trace, in execution order. */
  function AllNames(ts: seq<Trace>): seq<string>
  {
    if ts == [] then [] else Names(ts[0].steps) + AllNames(ts[1..])
  }

  /** A name occurs in `AllNames(ts)` exactly when some trace of `ts` has a step with it. */
  lemma {:induction false} AllNamesMembers(ts: seq<Trace>, name: string)
    ensures name in AllNames(ts) <==> exists i :: 0 <= i < |ts| && name in Names(ts[i].steps)
  {
    if ts != [] {
      AllNamesMembers(ts[1..], name);
      if name in AllNames(ts[1..]) {
        var i :| 0 <= i < |ts[1..]| && name in Names(ts[1..][i].steps);
        assert name in Names(ts[i + 1].steps);
      }
      if exists i :: 0 <= i < |ts| && name in Names(ts[i].steps) {
        var i :| 0 <= i < |ts| && name in Names(ts[i].steps);
        if i > 0 {
          assert ts[1..][i - 1] == ts[i];
        }
      }
    }
  }

  /** The discovery feature of a step: output length, forced to 0 by a non-empty error. */
  function StepFeature(o: Oracles, s: Step): (f: real)
    ensures ErrorTruthy(s) ==> f == 0.0
    ensures !ErrorTruthy(s) ==> f == OutputLength(o, s) as real
  {
    if ErrorTruthy(s) then 0.0 else OutputLength(o, s) as real
  }

  /** The number of traces with a step called `name`. */
  function CountWith(ts: seq<Trace>, name: string): nat
  {
    if ts == [] then 0
    else (if FindStep(ts[0].steps, name).Some? then 1 else 0) + CountWith(ts[1..], name)
  }

  /** Counting over a non-empty prefix: its first trace, then the rest of the prefix. */
  lemma CountWithPrefix(ts: seq<Trace>, name: string, q: nat)
    requires q < |ts|
    ensures CountWith(ts[..q + 1], name)
            == (if FindStep(ts[0].steps, name).Some? then 1 else 0) + CountWith(ts[1..][..q], name)
  {
    assert ts[..q + 1][0] == ts[0];
    assert ts[..q + 1][1..] == ts[1..][..q];
  }

  /** The feature of the first `name` step of each trace that has one, in trace order. */
  function Features(o: Oracles, ts: seq<Trace>, name: string): (r: seq<real>)
    ensures |r| == CountWith(ts, name)
  {
    if ts == [] then []
    else
      match FindStep(ts[0].steps, name)
      case Some(s) => [StepFeature(o, s)] + Features(o, ts[1..], name)
      case None => Features(o, ts[1..], name)
  }

  /** The quality score of each trace that has a `name` step, paired with `Features`. */
  function Qualities(ts: seq<Trace>, name: string): (r: seq<real>)
    requires AllScored(ts)
    ensures |r| == CountWith(ts, name)
  {
    if ts == [] then []
    else
      match FindStep(ts[0].steps, name)
      case Some(_) => [ts[0].quality.value] + Qualities(ts[1..], name)
      case None => Qualities(ts[1..], name)
  }

  /**
   * The `i`-th sample pair comes from the `i`-th trace holding the step: the feature is
   * that of the trace's first `name` step and the quality is the trace's score.
   */
  lemma {:induction false} SampleAt(o: Oracles, ts: seq<Trace>, name: string, i: nat) returns (p: nat)
    requires AllScored(ts) && i < CountWith(ts, name)
    ensures p < |ts| && FindStep(ts[p].steps, name).Some?
    ensures Features(o, ts, name)[i] == StepFeature(o, FindStep(ts[p].steps, name).value)
    ensures Qualities(ts, name)[i] == ts[p].quality.value
    ensures CountWith(ts[..p], name) == i
  {
    var rest := ts[1..];
    SamplesCons(o, ts, name);
    if FindStep(ts[0].steps, name).Some? && i == 0 {
      p := 0;
      assert ts[..0] == [];
    } else {
      var j := if FindStep(ts[0].steps, name).Some? then i - 1 else i;
      var q := SampleAt(o, rest, name, j);
      p := q + 1;
      assert rest[q] == ts[p];
      SampleAtNext(o, ts, name, i, q);
    }
  }

  /** The inductive step of `SampleAt`: a sample of the remaining traces, one trace further on. */
  lemma SampleAtNext(o: Oracles, ts: seq<Trace>, name: string, i: nat, q: nat)
    requires AllScored(ts) && ts != [] && i < CountWith(ts, name) && q + 1 < |ts|
    requires FindStep(ts[0].steps, name).Some? ==> i > 0
    requires var j := if FindStep(ts[0].steps, name).Some? then i - 1 else i;
      && AllScored(ts[1..]) && j < CountWith(ts[1..], name)
      && FindStep(ts[q + 1].steps, name).Some?
      && Features(o, ts[1..], name)[j] == StepFeature(o, FindStep(ts[q + 1].steps, name).value)
      && Qualities(ts[1..], name)[j] == ts[q + 1].quality.value
      && CountWith(ts[1..][..q], name) == j
    ensures Features(o, ts, name)[i] == StepFeature(o, FindStep(ts[q + 1].steps, name).value)
    ensures Qualities(ts, name)[i] == ts[q + 1].quality.value
    ensures CountWith(ts[..q + 1], name) == i
  {
    CountWithPrefix(ts, name, q);
    if FindStep(ts[0].steps, name).Some? {
      SamplesShift(o, ts, name, i);
    } else {
      SamplesCons(o, ts, name);
    }
  }

  /** Past a first trace that holds the step, the samples are those of the remaining traces. */
  lemma SamplesShift(o: Oracles, ts: seq<Trace>, name: string, i: nat)
    requires AllScored(ts) && ts != [] && FindStep(ts[0].steps, name).Some?
    requires 0 < i < CountWith(ts, name)
    ensures AllScored(ts[1..])
    ensures Features(o, ts, name)[i] == Features(o, ts[1..], name)[i - 1]
    ensures Qualities(ts, name)[i] == Qualities(ts[1..], name)[i - 1]
  {
    SamplesCons(o, ts, name);
    var fs, qs := Features(o, ts[1..], name), Qualities(ts[1..], name);
    assert ([StepFeature(o, FindStep(ts[0].steps, name).value)] + fs)[i] == fs[i - 1];
    assert ([ts[0].quality.value] + qs)[i] == qs[i - 1];
  }

  /** One step of the sample loop: the first trace contributes a pair exactly when it has the step. */
  lemma SamplesCons(o: Oracles, ts: seq<Trace>, name: string)
    requires AllScored(ts) && ts != []
    ensures AllScored(ts[1..])
    ensures FindStep(ts[0].steps, name).Some? ==>
      && Features(o, ts, name) == [StepFeature(o, FindStep(ts[0].steps, name).value)] + Features(o, ts[1..], name)
      && Qualities(ts, name) == [ts[0].quality.value] + Qualities(ts[1..], name)
    ensures FindStep(ts[0].steps, name).None? ==>
      Features(o, ts, name) == Features(o, ts[1..], name) && Qualities(ts, name) == Qualities(ts[1..], name)
  {
    forall j | 0 <= j < |ts[1..]|
      ensures ts[1..][j].quality.Some?
    {
      assert ts[1..][j] == ts[j + 1];
    }
  }

  // ---------------------------------------------------------------------------
  // Impacts

  /** The impact recorded for a step whose feature or quality array is constant. */
  function ZeroVarianceImpact(name: string): StepImpact
  {
    StepImpact(name, 0.0, 1.0, 0.0, false)
  }

  /**
   * The impact of one step from its paired samples: none with fewer than 5 pairs, the
   * zero-variance impact when either array is constant, else the rounded correlation,
   * rounded p-value and rounded |r|, with significance judged on the unrounded p-value.
   */
  function ImpactFor(o: Oracles, name: string, features: seq<real>, qualities: seq<real>,
                     alpha: real): (r: Option<StepImpact>)
    ensures r.Some? <==> |features| >= MinSamples
    ensures r.Some? ==> r.value.stepName == name
    ensures r.Some? ==> r.value.effectSize == Abs(r.value.correlation) && r.value.effectSize >= 0.0
    ensures r.Some? && (o.std(features) < VarianceFloor || o.std(qualities) < VarianceFloor)
            ==> r.value == ZeroVarianceImpact(name)
    ensures r.Some? ==> (r.value.isSignificant <==>
              && o.std(features) >= VarianceFloor && o.std(qualities) >= VarianceFloor
              && o.pearsonP(features, qualities) < alpha)
    ensures r.Some? && o.std(features) >= VarianceFloor && o.std(qualities) >= VarianceFloor ==>
              && r.value.correlation == Round(o.pearsonR(features, qualities), 4)
              && r.value.pValue == Round(o.pearsonP(features, qualities), 6)
    ensures r.Some? && Sound(o) ==> r.value.effectSize <= 1.0
  {
    if |features| < MinSamples then None
    else if o.std(features) < VarianceFloor || o.std(qualities) < VarianceFloor then
      Some(ZeroVarianceImpact(name))
    else
      var rho := o.pearsonR(features, qualities);
      var p := o.pearsonP(features, qualities);
      EffectIsAbsCorrelation(rho);
      EffectBound(o, features, qualities);
      Some(StepImpact(name, Round(rho, 4), Round(p, 6), Round(Abs(rho), 4), p < alpha))
  }

  lemma EffectIsAbsCorrelation(rho: real)
    ensures Round(Abs(rho), 4) == Abs(Round(rho, 4)) && Round(Abs(rho), 4) >= 0.0
  {
    RoundNonNegative(Abs(rho), 4);
    if rho < 0.0 {
      RoundOdd(-rho, 4);
      assert Round(rho, 4) == -Round(-rho, 4);
    }
  }

  lemma EffectBound(o: Oracles, features: seq<real>, qualities: seq<real>)
    ensures Sound(o) ==> Round(Abs(o.pearsonR(features, qualities)), 4) <= 1.0
  {
    if Sound(o) {
      var rho := o.pearsonR(features, qualities);
      assert -1.0 <= rho <= 1.0;
      RoundUnitInterval(Abs(rho), 4);
    }
  }

  /**
   * The loop over `step_order`: the impacts of the steps that have enough samples, in
   * `names` order.
   */
  function Impacts(o: Oracles, names: seq<string>, scored: seq<Trace>, alpha: real): (r: seq<StepImpact>)
    requires AllScored(scored)
    ensures |r| <= |names|
    ensures forall i :: 0 <= i < |r| ==> Some(r[i]) == ImpactOf(o, scored, r[i].stepName, alpha)
  {
    if names == [] then []
    else
      var rest := Impacts(o, names[1..], scored, alpha);
      match ImpactOf(o, scored, names[0], alpha)
      case Some(imp) =>
        assert forall i :: 0 < i < |rest| + 1 ==> ([imp] + rest)[i] == rest[i - 1];
        [imp] + rest
      case None => rest
  }

  /** The impact of step `name` computed from the scored traces. */
  function ImpactOf(o: Oracles, scored: seq<Trace>, name: string, alpha: real): (r: Option<StepImpact>)
    requires AllScored(scored)
    ensures r.Some? <==> CountWith(scored, name) >= MinSamples
    ensures r.Some? ==> r.value.stepName == name
  {
    ImpactFor(o, name, Features(o, scored, name), Qualities(scored, name), alpha)
  }

  /** The step names of a list of impacts, in order. */
  function ImpactNames(impacts: seq<StepImpact>): (r: seq<string>)
    ensures |r| == |impacts| && forall i :: 0 <= i < |r| ==> r[i] == impacts[i].stepName
  {
    if impacts == [] then [] else [impacts[0].stepName] + ImpactNames(impacts[1..])
  }

  /** The names of `names` contained in at least 5 traces of `scored`, in order. */
  function WellSampled(names: seq<string>, scored: seq<Trace>): (r: seq<string>)
    ensures forall x :: x in r <==> x in names && CountWith(scored, x) >= MinSamples
    ensures NoDup(names) ==> NoDup(r)
  {
    if names == [] then []
    else
      var rest := WellSampled(names[1..], scored);
      assert forall x :: x in names[1..] ==> x in names;
      if CountWith(scored, names[0]) >= MinSamples then
        assert NoDup(names) ==> names[0] !in names[1..];
        [names[0]] + rest
      else rest
  }

  /** The impacts are those of the well-sampled names, in loop order. */
  lemma {:induction false} ImpactsAreWellSampled(o: Oracles, names: seq<string>, scored: seq<Trace>, alpha: real)
    requires AllScored(scored)
    ensures ImpactNames(Impacts(o, names, scored, alpha)) == WellSampled(names, scored)
  {
    if names != [] {
      ImpactsAreWellSampled(o, names[1..], scored, alpha);
      var here := ImpactOf(o, scored, names[0], alpha);
      var rest := Impacts(o, names[1..], scored, alpha);
      if here.Some? {
        assert Impacts(o, names, scored, alpha) == [here.value] + rest;
        assert ([here.value] + rest)[1..] == rest;
      }
    }
  }

  /**
   * The distinct step names of the scored traces in order of first appearance; this is
   * also the order in which impacts are computed.
   */
  function StepOrder(scored: seq<Trace>): seq<string>
  {
    Dedup(AllNames(scored))
  }

  /** The impacts in computation order, before ranking. */
  function UnrankedImpacts(o: Oracles, scored: seq<Trace>, alpha: real): seq<StepImpact>
    requires AllScored(scored)
  {
    Impacts(o, StepOrder(scored), scored, alpha)
  }

  /** `discover_step_quality_causation(traces, significance_level)`. */
  function Discover(o: Oracles, traces: seq<Trace>, alpha: real): (g: CausalGraph)
    ensures g.nTraces == |Scored(traces)|
    ensures g.nTraces < MinSamples ==> g.stepImpacts == [] && g.stepOrder == []
    ensures SortedDesc(g.stepImpacts, EffectKey)
  {
    var scored := Scored(traces);
    if |scored| < MinSamples then CausalGraph([], [], |scored|)
    else
      var order := StepOrder(scored);
      CausalGraph(SortDesc(Impacts(o, order, scored, alpha), EffectKey), order, |scored|)
  }

  // ---------------------------------------------------------------------------
  // Properties of a discovery run

  /** Unfolding helper: `Discover` past its early return, for the lemmas below. */
  lemma DiscoverUnfold(o: Oracles, traces: seq<Trace>, alpha: real)
    requires |Scored(traces)| >= MinSamples
    ensures Discover(o, traces, alpha).stepOrder == StepOrder(Scored(traces))
    ensures Discover(o, traces, alpha).stepImpacts
            == SortDesc(UnrankedImpacts(o, Scored(traces), alpha), EffectKey)
  {
  }

  /** `n_traces` counts exactly the positions that carry a quality score. */
  lemma DiscoverCountsScored(o: Oracles, traces: seq<Trace>, alpha: real)
    ensures Discover(o, traces, alpha).nTraces == |ScoredPositions(traces)|
  {
    ScoredCount(traces);
  }

  /**
   * `step_order` lists each step name of the scored traces exactly once, in order of
   * first appearance.
   */
  lemma DiscoverStepOrder(o: Oracles, traces: seq<Trace>, alpha: real, name: string)
    requires |Scored(traces)| >= MinSamples
    ensures var order := Discover(o, traces, alpha).stepOrder;
            var names := AllNames(Scored(traces));
      && NoDup(order)
      && (name in order <==> exists i :: 0 <= i < |Scored(traces)| && name in Names(Scored(traces)[i].steps))
      && order == FirstOccurrences(names, |names|)
  {
    DiscoverUnfold(o, traces, alpha);
    var names := AllNames(Scored(traces));
    var order := Dedup(names);
    DedupKeepsFirst(names);
    AllNamesMembers(Scored(traces), name);
    if name in names {
      var k :| 0 <= k < |names| && names[k] == name;
    }
  }

  /**
   * The ranked impacts are a permutation of the unranked ones, non-increasing in
   * effect size, and steps with equal effect size keep their `step_order` order.
   */
  lemma DiscoverRanking(o: Oracles, traces: seq<Trace>, alpha: real, v: real)
    requires |Scored(traces)| >= MinSamples
    ensures var g := Discover(o, traces, alpha); var u := UnrankedImpacts(o, Scored(traces), alpha);
      && multiset(g.stepImpacts) == multiset(u)
      && SortedDesc(g.stepImpacts, EffectKey)
      && KeyFilter(g.stepImpacts, EffectKey, v) == KeyFilter(u, EffectKey, v)
      && ImpactNames(u) == WellSampled(g.stepOrder, Scored(traces))
  {
    DiscoverUnfold(o, traces, alpha);
    var scored := Scored(traces);
    SortDescStable(UnrankedImpacts(o, scored, alpha), EffectKey, v);
    SortDescPermutes(UnrankedImpacts(o, scored, alpha), EffectKey);
    ImpactsAreWellSampled(o, StepOrder(scored), scored, alpha);
  }

  /** Membership in the ranked impacts is membership in the unranked ones. */
  lemma RankedMember(o: Oracles, traces: seq<Trace>, alpha: real, imp: StepImpact)
    requires |Scored(traces)| >= MinSamples
    ensures imp in Discover(o, traces, alpha).stepImpacts <==> imp in UnrankedImpacts(o, Scored(traces), alpha)
  {
    DiscoverUnfold(o, traces, alpha);
    var u := UnrankedImpacts(o, Scored(traces), alpha);
    SortDescPermutes(u, EffectKey);
    assert imp in SortDesc(u, EffectKey) <==> imp in multiset(SortDesc(u, EffectKey));
  }

  /**
   * Every ranked impact is the one `ImpactFor` computes from that step's samples; so its
   * effect size is |correlation| and non-negative, at most 1 for sound oracles, and it is
   * significant exactly when the variance check passes and the unrounded p-value is
   * below the level.
   */
  lemma DiscoverImpactsFromSamples(o: Oracles, traces: seq<Trace>, alpha: real, imp: StepImpact)
    requires imp in Discover(o, traces, alpha).stepImpacts
    ensures var scored := Scored(traces); var n := imp.stepName;
      && AllScored(scored)
      && n in Discover(o, traces, alpha).stepOrder
      && CountWith(scored, n) >= MinSamples
      && Some(imp) == ImpactFor(o, n, Features(o, scored, n), Qualities(scored, n), alpha)
      && imp.effectSize == Abs(imp.correlation) && imp.effectSize >= 0.0
      && (Sound(o) ==> imp.effectSize <= 1.0)
  {
    var scored := Scored(traces);
    DiscoverUnfold(o, traces, alpha);
    RankedMember(o, traces, alpha, imp);
    var u := UnrankedImpacts(o, scored, alpha);
    var k :| 0 <= k < |u| && u[k] == imp;
    assert Some(imp) == ImpactOf(o, scored, imp.stepName, alpha);
    ImpactsAreWellSampled(o, StepOrder(scored), scored, alpha);
    assert ImpactNames(u)[k] == imp.stepName;
    assert imp.stepName in WellSampled(StepOrder(scored), scored);
  }

  /**
   * The ranked impacts name each well-sampled step of `step_order` exactly once: a step
   * gets an impact exactly when at least 5 scored traces contain it.
   */
  lemma DiscoverWhichSteps(o: Oracles, traces: seq<Trace>, alpha: real, name: string)
    requires |Scored(traces)| >= MinSamples
    ensures var g := Discover(o, traces, alpha);
      && (name in ImpactNames(g.stepImpacts)
          <==> name in g.stepOrder && CountWith(Scored(traces), name) >= MinSamples)
      && NoDup(ImpactNames(g.stepImpacts))
  {
    var scored := Scored(traces);
    var g := Discover(o, traces, alpha);
    DiscoverUnfold(o, traces, alpha);
    var u := UnrankedImpacts(o, scored, alpha);
    ImpactsAreWellSampled(o, StepOrder(scored), scored, alpha);
    SortDescPermutes(u, EffectKey);
    assert multiset(g.stepImpacts) == multiset(u);
    PermutationNames(u, g.stepImpacts, name);
    PermutationNamesNoDup(u, g.stepImpacts);
  }

  /** Two orderings of the same impacts carry the same names. */
  lemma PermutationNames(a: seq<StepImpact>, b: seq<StepImpact>, name: string)
    requires multiset(a) == multiset(b)
    ensures name in ImpactNames(a) <==> name in ImpactNames(b)
  {
    if name in ImpactNames(a) {
      var i :| 0 <= i < |a| && ImpactNames(a)[i] == name;
      assert a[i] in multiset(b);
      var j :| 0 <= j < |b| && b[j] == a[i];
      assert ImpactNames(b)[j] == name;
    }
    if name in ImpactNames(b) {
      var j :| 0 <= j < |b| && ImpactNames(b)[j] == name;
      assert b[j] in multiset(a);
      var i :| 0 <= i < |a| && a[i] == b[j];
      assert ImpactNames(a)[i] == name;
    }
  }

  /** Reordering impacts with distinct names keeps their names distinct. */
  lemma PermutationNamesNoDup(a: seq<StepImpact>, b: seq<StepImpact>)
    requires multiset(a) == multiset(b) && NoDup(ImpactNames(a))
    ensures NoDup(ImpactNames(b))
  {
    assert NoDup(a) by {
      forall i, j | 0 <= i < j < |a|
        ensures a[i] != a[j]
      {
        assert ImpactNames(a)[i] != ImpactNames(a)[j];
      }
    }
    PermutationNoDup(a, b);
    forall i, j | 0 <= i < j < |b|
      ensures ImpactNames(b)[i] != ImpactNames(b)[j]
    {
      assert b[i] in multiset(a) && b[j] in multiset(a);
      var x :| 0 <= x < |a| && a[x] == b[i];
      var y :| 0 <= y < |a| && a[y] == b[j];
      assert x != y;
      assert ImpactNames(a)[x] != ImpactNames(a)[y];
    }
  }

  // ---------------------------------------------------------------------------
  // Sites where the error test differs

  /**
   * An empty error string is an error for `is_failure` but does not zero the discovery
   * feature.
   */
  lemma EmptyErrorIsFailureButKeepsFeature(o: Oracles, s: Step, t: Trace)
    requires s.error == Some("")
    requires t.quality.None? && s in t.steps
    ensures IsFailure(t)
    ensures StepFeature(o, s) == OutputLength(o, s) as real
  {
    IsFailureRule(t);
    var i :| 0 <= i < |t.steps| && t.steps[i] == s;
  }

  /**
   * Significance is judged on the unrounded p-value: a p-value of 0.0099996 is stored
   * as 0.01 and is still significant at level 0.01.
   */
  lemma StoredPValueCanEqualLevel()
    ensures var o := Oracles((f, q) => 0.5, (f, q) => 0.0099996, xs => 1.0, v => "");
      var xs := [1.0, 2.0, 3.0, 4.0, 5.0];
      var imp := ImpactFor(o, "retrieval", xs, xs, 0.01);
      imp.Some? && imp.value.isSignificant && imp.value.pValue == 0.01
  {
    assert RoundHalfEven(0.0099996 * 1000000.0) == 10000;
    assert Pow10(6) == 1000000;
  }
}

=== FILE: fixes.dfy ===
/**
 * Fix suggestion (`suggest_fixes`): the fix templates for the root step's type,
 * retargeted at the root step, preceded by an input-length guard for each of the first
 * two failure conditions that bound a length from above.
 */
module Fixes {
  import opened Wrappers
  import opened Numeric
  import opened Seqs
  import opened Attribution
  import opened Conditions

  /** A recommended fix. */
  datatype Fix = Fix(
    stepName: string,
    category: string,
    description: string,
    expectedImpact: string,
    codeHint: string)

  const RetrieverTemplates: seq<Fix> := [
    Fix("", "parameter", "Increase retrieval k for failing queries",
        "30-50% reduction in retrieval failures",
        "retriever.k = 12 if condition else 5"),
    Fix("", "preprocessing", "Chunk/decompose long queries before retrieval",
        "40-60% reduction for long-query failures",
        "Add QueryDecomposer step before retrieval"),
    Fix("", "architecture", "Use hybrid search (semantic + keyword)",
        "20-30% improvement in edge cases",
        "retriever.search_type = \"hybrid\"")]

  const LlmTemplates: seq<Fix> := [
    Fix("", "prompt", "Add grounding constraints to prevent hallucination",
        "25-40% reduction in hallucination",
        "prompt += \"Only use facts from the provided context.\""),
    Fix("", "parameter", "Lower temperature for failing step",
        "15-30% reduction in inconsistency",
        "temperature = 0.3"),
    Fix("", "model", "Use a stronger model for this step",
        "20-40% quality improvement",
        "model = \"gpt-4o\" for this step")]

  const TransformerTemplates: seq<Fix> := [
    Fix("", "preprocessing", "Add input validation before transformation",
        "10-20% reduction in format errors",
        "validate_schema(input) before transform"),
    Fix("", "postprocessing", "Add output validation after transformation",
        "15-25% bad output filtering",
        "validate_output(result) with fallback")]

  /** `_FIX_TEMPLATES`, keyed by step type. */
  const FixTemplates: map<string, seq<Fix>> :=
    map["retriever" := RetrieverTemplates, "llm" := LlmTemplates, "transformer" := TransformerTemplates]

  /** `_FIX_TEMPLATES.get(step_type, _FIX_TEMPLATES["llm"])`. */
  function TemplatesFor(stepType: string): (ts: seq<Fix>)
    ensures stepType in FixTemplates ==> ts == FixTemplates[stepType]
    ensures stepType !in FixTemplates ==> ts == LlmTemplates
    ensures |ts| == if stepType == "transformer" then 2 else 3
  {
    if stepType in FixTemplates then FixTemplates[stepType] else FixTemplates["llm"]
  }

  /** The template loop: each template copied with the root step's name. */
  function Retarget(ts: seq<Fix>, name: string): (r: seq<Fix>)
    ensures |r| == |ts|
    ensures forall i :: 0 <= i < |r| ==> r[i] == ts[i].(stepName := name)
  {
    if ts == [] then [] else [ts[0].(stepName := name)] + Retarget(ts[1..], name)
  }

  /** `"length" in condition.lower() and ">" in condition`. */
  predicate IsLengthGuard(condition: string)
  {
    Contains(Lower(condition), "length") && Contains(condition, ">")
  }

  /** The fix inserted for a length condition. */
  function GuardFix(name: string, c: FailureCondition): Fix
  {
    Fix(name, "preprocessing",
        "Add input length guard: when " + c.condition + ", use alternative strategy",
        IntToString(Trunc(c.confidence * 100.0)) + "% of failures match this condition",
        "if " + c.condition + ": use_fallback_strategy()")
  }

  /** The guard a condition earns: one fix if it bounds a length from above, none otherwise. */
  function GuardOf(name: string, c: FailureCondition): (r: seq<Fix>)
    ensures |r| <= 1
    ensures |r| == 1 <==> IsLengthGuard(c.condition)
    ensures r != [] ==> r[0] == GuardFix(name, c)
  {
    if IsLengthGuard(c.condition) then [GuardFix(name, c)] else []
  }

  /** The condition loop: `fixes.insert(0, …)` for each qualifying condition in turn. */
  function InsertGuards(fixes: seq<Fix>, conds: seq<FailureCondition>, name: string): seq<Fix>
    decreases |conds|
  {
    if conds == [] then fixes
    else
      InsertGuards(GuardOf(name, conds[0]) + fixes, conds[1..], name)
  }

  /** `suggest_fixes(root_cause, conditions, step_type)`. */
  function SuggestFixes(rc: RootCause, conds: seq<FailureCondition>, stepType: string): seq<Fix>
  {
    InsertGuards(Retarget(TemplatesFor(stepType), rc.rootStep), conds[..Min2(|conds|)], rc.rootStep)
  }

  /** `min(2, n)`: the slice `[:2]` keeps at most two conditions. */
  function Min2(n: nat): (m: nat)
    ensures m <= n && m <= 2 && (m == 2 || m == n)
  {
    if n < 2 then n else 2
  }

  // ---------------------------------------------------------------------------
  // Reference definition

  /** The number of conditions that bound a length from above. */
  function GuardCount(conds: seq<FailureCondition>): nat
  {
    if conds == [] then 0
    else (if IsLengthGuard(conds[0].condition) then 1 else 0) + GuardCount(conds[1..])
  }

  /** The guard fixes of the qualifying conditions, in condition order. */
  function Guards(conds: seq<FailureCondition>, name: string): (r: seq<Fix>)
    ensures |r| <= |conds|
    ensures |r| == GuardCount(conds)
  {
    if conds == [] then []
    else GuardOf(name, conds[0]) + Guards(conds[1..], name)
  }

  function Reverse<T>(s: seq<T>): (r: seq<T>)
    ensures |r| == |s| && forall i :: 0 <= i < |s| ==> r[i] == s[|s| - 1 - i]
  {
    if s == [] then [] else Reverse(s[1..]) + [s[0]]
  }

  /** The guard a condition earns, as an optional value. */
  function GuardOption(name: string): FailureCondition -> Option<Fix>
  {
    (c: FailureCondition) => if IsLengthGuard(c.condition) then Some(GuardFix(name, c)) else None
  }

  lemma {:induction false} GuardsFilterMap(conds: seq<FailureCondition>, name: string)
    ensures Guards(conds, name) == FilterMap(conds, GuardOption(name))
  {
    if conds != [] {
      GuardsFilterMap(conds[1..], name);
      var f := GuardOption(name);
      assert FilterMap(conds, f) == (if f(conds[0]).Some? then [f(conds[0]).value] else []) + FilterMap(conds[1..], f);
    }
  }

  /**
   * The `i`-th guard is the guard of the `i`-th qualifying condition, in condition
   * order: the condition at `p` bounds a length from above and `i` come before it.
   */
  lemma GuardAt(conds: seq<FailureCondition>, name: string, i: nat) returns (p: nat)
    requires i < |Guards(conds, name)|
    ensures p < |conds| && IsLengthGuard(conds[p].condition)
    ensures Guards(conds, name)[i] == GuardFix(name, conds[p])
    ensures GuardCount(conds[..p]) == i
  {
    GuardsFilterMap(conds, name);
    p := FilterMapSource(conds, GuardOption(name), i);
    GuardsFilterMap(conds[..p], name);
  }

  /** Every qualifying condition earns its guard. */
  lemma GuardsComplete(conds: seq<FailureCondition>, name: string, j: nat)
    requires j < |conds| && IsLengthGuard(conds[j].condition)
    ensures GuardFix(name, conds[j]) in Guards(conds, name)
  {
    GuardsFilterMap(conds, name);
    FilterMapComplete(conds, GuardOption(name), j);
  }

  /** Inserting at the front one by one lays the guards out in reverse condition order. */
  lemma {:induction false} InsertGuardsReverses(fixes: seq<Fix>, conds: seq<FailureCondition>, name: string)
    ensures InsertGuards(fixes, conds, name) == Reverse(Guards(conds, name)) + fixes
    decreases |conds|
  {
    if conds != [] {
      var g := GuardOf(name, conds[0]);
      var rest := Guards(conds[1..], name);
      assert InsertGuards(fixes, conds, name) == InsertGuards(g + fixes, conds[1..], name);
      InsertGuardsReverses(g + fixes, conds[1..], name);
      assert Guards(conds, name) == g + rest;
      ReverseAppend(g, rest);
      assert Reverse(g) == g;
      assert Reverse(rest) + (g + fixes) == (Reverse(rest) + Reverse(g)) + fixes;
    }
  }

  lemma ReverseAppend<T>(a: seq<T>, b: seq<T>)
    ensures Reverse(a + b) == Reverse(b) + Reverse(a)
  {
    assert |Reverse(a + b)| == |Reverse(b) + Reverse(a)|;
    forall i | 0 <= i < |a + b|
      ensures Reverse(a + b)[i] == (Reverse(b) + Reverse(a))[i]
    {
      if i < |b| {
        assert (a + b)[|a + b| - 1 - i] == b[|b| - 1 - i];
      } else {
        assert (a + b)[|a + b| - 1 - i] == a[|a| - 1 - (i - |b|)];
      }
    }
  }

  // ---------------------------------------------------------------------------
  // Properties

  /**
   * The suggestions are the guards for the first two conditions, latest first,
   * followed by the type's templates retargeted at the root step.
   */
  lemma SuggestFixesLayout(rc: RootCause, conds: seq<FailureCondition>, stepType: string)
    ensures SuggestFixes(rc, conds, stepType)
            == Reverse(Guards(conds[..Min2(|conds|)], rc.rootStep)) + Retarget(TemplatesFor(stepType), rc.rootStep)
  {
    InsertGuardsReverses(Retarget(TemplatesFor(stepType), rc.rootStep), conds[..Min2(|conds|)], rc.rootStep);
  }

  /** Every suggestion targets the root step. */
  lemma SuggestionsTargetRoot(rc: RootCause, conds: seq<FailureCondition>, stepType: string, i: nat)
    requires i < |SuggestFixes(rc, conds, stepType)|
    ensures SuggestFixes(rc, conds, stepType)[i].stepName == rc.rootStep
  {
    var gs := Guards(conds[..Min2(|conds|)], rc.rootStep);
    var ts := Retarget(TemplatesFor(stepType), rc.rootStep);
    SuggestFixesLayout(rc, conds, stepType);
    GuardsTarget(conds[..Min2(|conds|)], rc.rootStep);
    if i < |gs| {
      assert SuggestFixes(rc, conds, stepType)[i] == gs[|gs| - 1 - i];
    } else {
      assert SuggestFixes(rc, conds, stepType)[i] == ts[i - |gs|];
    }
  }

  lemma {:induction false} GuardsTarget(conds: seq<FailureCondition>, name: string)
    ensures forall i :: 0 <= i < |Guards(conds, name)| ==> Guards(conds, name)[i].stepName == name
  {
    if conds != [] {
      var g, rest := GuardOf(name, conds[0]), Guards(conds[1..], name);
      assert Guards(conds, name) == g + rest;
      GuardsTarget(conds[1..], name);
      assert forall i :: 0 <= i < |g| ==> g[i].stepName == name;
    }
  }

  /**
   * The number of suggestions: three templates for "retriever", two for "transformer",
   * three (the "llm" ones) otherwise, plus at most two guards.
   */
  lemma SuggestionCount(rc: RootCause, conds: seq<FailureCondition>, stepType: string)
    ensures var n := |SuggestFixes(rc, conds, stepType)|;
      var t := if stepType == "transformer" then 2 else 3;
      && n == t + GuardCount(conds[..Min2(|conds|)])
      && t <= n <= t + 2 && n <= t + |conds|
  {
    var gs := Guards(conds[..Min2(|conds|)], rc.rootStep);
    SuggestFixesLayout(rc, conds, stepType);
    assert |SuggestFixes(rc, conds, stepType)| == |gs| + |TemplatesFor(stepType)|;
  }

  /** Only the first two conditions are looked at. */
  lemma OnlyFirstTwoConditions(rc: RootCause, conds: seq<FailureCondition>, stepType: string)
    requires |conds| >= 2
    ensures SuggestFixes(rc, conds, stepType) == SuggestFixes(rc, conds[..2], stepType)
  {
    assert conds[..2][..2] == conds[..2];
  }

  // ---------------------------------------------------------------------------
  // Which detector conditions earn a guard

  predicate IsNumberText(x: string)
  {
    forall i :: 0 <= i < |x| ==> NumberChar(x[i])
  }

  function OpText(upper: bool): string
  {
    if upper then " > " else " < "
  }

  /** Unfolding helper: a detector condition text is a feature name, an operator and a formatted number. */
  lemma ConditionTextParts(k: FeatureKey, upper: bool, t: real)
    ensures ConditionText(k, upper, t) == KeyName(k) + OpText(upper) + Fixed1(t)
    ensures IsNumberText(Fixed1(t))
  {
  }

  /** A property every character of such a text has, given its parts. */
  lemma TextChars(k: FeatureKey, upper: bool, x: string, p: char -> bool)
    requires IsNumberText(x)
    requires forall i :: 0 <= i < |KeyName(k)| ==> p(KeyName(k)[i])
    requires p(' ') && p(if upper then '>' else '<')
    requires forall c :: NumberChar(c) ==> p(c)
    ensures forall i :: 0 <= i < |KeyName(k) + OpText(upper) + x| ==> p((KeyName(k) + OpText(upper) + x)[i])
  {
    var a, b := KeyName(k), OpText(upper);
    var s := a + b + x;
    forall i | 0 <= i < |s|
      ensures p(s[i])
    {
      if i < |a| {
        assert s[i] == a[i];
      } else if i < |a| + |b| {
        assert s[i] == b[i - |a|];
      } else {
        assert s[i] == x[i - |a| - |b|];
        assert NumberChar(x[i - |a| - |b|]);
      }
    }
  }

  /** Lower-casing leaves a detector condition text as it is. */
  lemma ConditionTextIsLower(k: FeatureKey, upper: bool, t: real)
    ensures Lower(ConditionText(k, upper, t)) == ConditionText(k, upper, t)
  {
    ConditionTextParts(k, upper, t);
    TextChars(k, upper, Fixed1(t), c => !('A' <= c <= 'Z'));
    LowerKeepsNonUpper(ConditionText(k, upper, t));
  }

  /** A latency condition has no "g", so no "length". */
  lemma LatencyTextLacksLength(upper: bool, x: string)
    requires IsNumberText(x)
    ensures !Contains(KeyName(LatencyMs) + OpText(upper) + x, "length")
  {
    TextChars(LatencyMs, upper, x, c => c != 'g');
    assert "length"[3] == 'g';
    MissingCharNotContained(KeyName(LatencyMs) + OpText(upper) + x, "length", 3);
  }

  /** The name of every other feature ends in "length". */
  lemma LengthKeyTextHasLength(k: FeatureKey, rest: string)
    requires k != LatencyMs
    ensures Contains(KeyName(k) + rest, "length")
  {
    var prefix := match k
      case InputLength => "input_"
      case OutputLength => "output_"
      case QueryLength => "query_"
      case LatencyMs => "";
    assert KeyName(k) == prefix + "length";
    ContainsMiddle(prefix, "length", rest);
  }

  /** A detector condition text mentions "length" exactly when its feature is not the latency. */
  lemma ConditionTextMentionsLength(k: FeatureKey, upper: bool, t: real)
    ensures Contains(ConditionText(k, upper, t), "length") <==> k != LatencyMs
  {
    if k == LatencyMs {
      LatencyConditionLacksLength(upper, t);
    } else {
      LengthConditionHasLength(k, upper, t);
    }
  }

  lemma LatencyConditionLacksLength(upper: bool, t: real)
    ensures !Contains(ConditionText(LatencyMs, upper, t), "length")
  {
    ConditionTextParts(LatencyMs, upper, t);
    LatencyTextLacksLength(upper, Fixed1(t));
  }

  lemma LengthConditionHasLength(k: FeatureKey, upper: bool, t: real)
    requires k != LatencyMs
    ensures Contains(ConditionText(k, upper, t), "length")
  {
    var rest := OpText(upper) + Fixed1(t);
    assert ConditionText(k, upper, t) == KeyName(k) + rest by {
      ConditionTextParts(k, upper, t);
    }
    LengthKeyTextHasLength(k, rest);
  }

  /** Such a text has ">" exactly when its operator is ">". */
  lemma TextHasGreater(k: FeatureKey, upper: bool, x: string)
    requires IsNumberText(x)
    ensures '>' in KeyName(k) + OpText(upper) + x <==> upper
  {
    if upper {
      assert (KeyName(k) + OpText(upper) + x)[|KeyName(k)| + 1] == '>';
    } else {
      TextChars(k, upper, x, c => c != '>');
    }
  }

  /** A detector condition text contains ">" exactly when it bounds from above. */
  lemma ConditionTextMentionsGreater(k: FeatureKey, upper: bool, t: real)
    ensures Contains(ConditionText(k, upper, t), ">") <==> upper
  {
    ConditionTextParts(k, upper, t);
    ContainsChar(ConditionText(k, upper, t), '>');
    TextHasGreater(k, upper, Fixed1(t));
  }

  /**
   * A condition from the detector earns a guard fix exactly when it bounds a length
   * feature (not latency) from above.
   */
  lemma GuardForDetectedCondition(k: FeatureKey, upper: bool, t: real)
    ensures IsLengthGuard(ConditionText(k, upper, t)) <==> k != LatencyMs && upper
  {
    ConditionTextIsLower(k, upper, t);
    ConditionTextMentionsLength(k, upper, t);
    ConditionTextMentionsGreater(k, upper, t);
  }
}

=== FILE: host.dfy ===
/**
 * What the analysis borrows from its host environment: scipy's `pearsonr`, numpy's
 * `std`, and Python's `str()` of floats, lists and dicts. None of them is modelled;
 * they are parameters, and the only facts assumed about them are those in `Sound`.
 */
module Host {
  import opened Numeric
  import opened Values

  datatype Oracles = Oracles(
    pearsonR: (seq<real>, seq<real>) -> real,  // correlation coefficient of `pearsonr`
    pearsonP: (seq<real>, seq<real>) -> real,  // two-sided p-value of `pearsonr`
    std: seq<real> -> real,                     // population standard deviation
    show: Value -> string)                      // `str()` of a float, list or dict

  /** The mathematical facts the analysis may rely on. */
  ghost predicate Sound(o: Oracles)
  {
    && (forall xs, ys :: -1.0 <= o.pearsonR(xs, ys) <= 1.0)
    && (forall xs :: o.std(xs) >= 0.0)
  }

  /** Python's `str(v)`. */
  function Str(o: Oracles, v: Value): (s: string)
    ensures v.VStr? ==> s == v.s
    ensures v.VObject? ==> s == v.text
    ensures v.VInt? && v.i >= 0 ==> s == NatToString(v.i)
    ensures v.VInt? ==> s == IntToString(v.i)
    ensures v.VNone? ==> s == "None"
    ensures v.VBool? ==> s == (if v.b then "True" else "False")
  {
    match v
    case VStr(s) => s
    case VObject(t) => t
    case VNone => "None"
    case VBool(b) => if b then "True" else "False"
    case VInt(i) => IntToString(i)
    case _ => o.show(v)
  }
}

=== FILE: logger.dfy ===
/**
 * `TraceLogger` as a state machine. The Python object's fields become an immutable
 * state; each method is a function from the old state to the new one. Fresh trace ids
 * (`str(uuid4())[:8]`) and the current time are supplied by the caller.
 */
module Logger {
  import opened Wrappers
  import opened Values
  import opened Traces

  /**
   * `_traces`, `_current_steps`, and the attributes `start_trace` creates on first use:
   * `_current_trace_id` and `_current_context` (`None` until then).
   */
  datatype LoggerState = LoggerState(
    traces: seq<Trace>,
    buffer: seq<Step>,
    traceId: Option<string>,
    context: Option<Dict>)

  function NewLogger(): (st: LoggerState)
    ensures st.traces == [] && st.buffer == []
    ensures st.traceId.None? && st.context.None?
  {
    LoggerState([], [], None, None)
  }

  /** `start_trace(context)`: returns the new state and the trace id. */
  function StartTrace(st: LoggerState, context: Option<Dict>, freshId: string): (r: (LoggerState, string))
    ensures r.1 == freshId && r.0.traceId == Some(freshId)
    ensures r.0.buffer == [] && r.0.traces == st.traces
    ensures context.Some? ==> r.0.context == context
    ensures context.None? ==> r.0.context == Some(map[])
  {
    (st.(buffer := [], context := Some(context.GetOr(map[])), traceId := Some(freshId)), freshId)
  }

  /** `log_step(...)`: absent dictionaries become empty ones. */
  function LogStep(st: LoggerState, name: string, stepType: string, inputs: Option<Dict>,
                   outputs: Option<Dict>, metadata: Option<Dict>, latencyMs: real,
                   error: Option<string>): (r: LoggerState)
    ensures |r.buffer| == |st.buffer| + 1 && r.buffer[..|st.buffer|] == st.buffer
    ensures r.traces == st.traces && r.traceId == st.traceId && r.context == st.context
  {
    var step := Step(name, stepType, inputs.GetOr(map[]), outputs.GetOr(map[]),
                     metadata.GetOr(map[]), latencyMs, error);
    st.(buffer := st.buffer + [step])
  }

  /** The step `LogStep` records. */
  lemma LoggedStep(st: LoggerState, name: string, stepType: string, inputs: Option<Dict>,
                   outputs: Option<Dict>, metadata: Option<Dict>, latencyMs: real, error: Option<string>)
    ensures var s := LogStep(st, name, stepType, inputs, outputs, metadata, latencyMs, error).buffer[|st.buffer|];
      && s.name == name && s.stepType == stepType && s.latencyMs == latencyMs && s.error == error
      && (inputs.None? ==> s.inputs == map[]) && (inputs.Some? ==> s.inputs == inputs.value)
      && (outputs.None? ==> s.outputs == map[]) && (outputs.Some? ==> s.outputs == outputs.value)
      && (metadata.None? ==> s.metadata == map[]) && (metadata.Some? ==> s.metadata == metadata.value)
  {
  }

  /**
   * `end_trace(final_output, quality_score)`: packs the buffered steps into a trace with
   * the id and context of the last `start_trace` (a fresh id and `{}` if there was none),
   * appends it to `traces` and empties the buffer.
   */
  function EndTrace(st: LoggerState, finalOutput: Value, quality: Option<real>,
                    freshId: string, now: Timestamp): (r: (LoggerState, Trace))
    ensures r.1.steps == st.buffer && r.1.quality == quality && r.1.finalOutput == finalOutput
    ensures st.traceId.Some? ==> r.1.traceId == st.traceId.value
    ensures st.traceId.None? ==> r.1.traceId == freshId
    ensures st.context.None? ==> r.1.context == map[]
    ensures st.context.Some? ==> r.1.context == st.context.value
    ensures r.1.timestamp == now
    ensures r.0.traces == st.traces + [r.1] && r.0.buffer == []
    ensures r.0.traceId == st.traceId && r.0.context == st.context
  {
    var trace := Trace(st.traceId.GetOr(freshId), st.buffer, finalOutput, quality, now,
                       st.context.GetOr(map[]));
    (st.(traces := st.traces + [trace], buffer := []), trace)
  }

  /** Ending a trace on a fresh logger, with no `start_trace` before it, uses a fresh id and `{}`. */
  lemma EndTraceBeforeStart(finalOutput: Value, quality: Option<real>, freshId: string, now: Timestamp)
    ensures var (st, trace) := EndTrace(NewLogger(), finalOutput, quality, freshId, now);
      && trace.traceId == freshId && trace.context == map[] && trace.steps == []
      && st.traces == [trace]
  {
  }

  /** Logs each of `steps` in turn, passing all of its fields. */
  function LogAll(st: LoggerState, steps: seq<Step>): LoggerState
    decreases |steps|
  {
    if steps == [] then st
    else
      var s := steps[0];
      var st' := LogStep(st, s.name, s.stepType, Some(s.inputs), Some(s.outputs),
                         Some(s.metadata), s.latencyMs, s.error);
      LogAll(st', steps[1..])
  }

  lemma {:induction false} LogAllAppends(st: LoggerState, steps: seq<Step>)
    ensures LogAll(st, steps).buffer == st.buffer + steps
    ensures LogAll(st, steps).traces == st.traces
    ensures LogAll(st, steps).traceId == st.traceId
    ensures LogAll(st, steps).context == st.context
    decreases |steps|
  {
    if steps != [] {
      var s := steps[0];
      var st' := LogStep(st, s.name, s.stepType, Some(s.inputs), Some(s.outputs),
                         Some(s.metadata), s.latencyMs, s.error);
      LogAllAppends(st', steps[1..]);
      assert st'.buffer == st.buffer + [s];
      assert st.buffer + [s] + steps[1..] == st.buffer + steps;
    }
  }

  /**
   * A whole session: after `start_trace`, logging `steps` and `end_trace`, the returned
   * trace carries the id `start_trace` returned, the context it was given and exactly the
   * logged steps in order; it is the one appended to the traces.
   */
  lemma Session(st: LoggerState, context: Option<Dict>, id: string, steps: seq<Step>,
                finalOutput: Value, quality: Option<real>, otherId: string, now: Timestamp)
    ensures var (st1, tid) := StartTrace(st, context, id);
      var (st2, trace) := EndTrace(LogAll(st1, steps), finalOutput, quality, otherId, now);
      && trace.traceId == tid
      && trace.steps == steps
      && trace.context == context.GetOr(map[])
      && st2.traces == st.traces + [trace]
      && st2.buffer == []
  {
    var (st1, tid) := StartTrace(st, context, id);
    LogAllAppends(st1, steps);
  }

  /**
   * `end_trace` twice without `start_trace` in between: both traces share the id, and
   * the second has no steps.
   */
  lemma EndTraceTwice(st: LoggerState, out1: Value, q1: Option<real>, id1: string, t1: Timestamp,
                      out2: Value, q2: Option<real>, id2: string, t2: Timestamp)
    requires st.traceId.Some?
    ensures var (st1, first) := EndTrace(st, out1, q1, id1, t1);
      var (st2, second) := EndTrace(st1, out2, q2, id2, t2);
      && second.traceId == first.traceId
      && second.steps == []
      && st2.traces == st.traces + [first, second]
  {
  }
}

=== FILE: numeric.dfy ===
/**
 * Exact decimal arithmetic standing in for the float helpers the analysis uses:
 * Python's `round(x, n)` (round half to even), `f"{x:.1f}"`, `int(x)`, `str(n)`
 * and numpy's `mean`. Reals are exact, so results are the exact decimals that
 * CPython's correctly rounded operations aim at.
 */
module Numeric {

  function Abs(x: real): (r: real)
    ensures r >= 0.0 && (r == x || r == -x)
  {
    if x < 0.0 then -x else x
  }

  function Min(x: real, y: real): (r: real)
    ensures r <= x && r <= y && (r == x || r == y)
  {
    if x <= y then x else y
  }

  function Max(x: real, y: real): (r: real)
    ensures r >= x && r >= y && (r == x || r == y)
  {
    if x >= y then x else y
  }

  /**
   * `a * b`, named so that proofs about a product need not look inside it: a bare
   * product of two computed reals sends the solver into non-linear search.
   */
  function Product(a: real, b: real): (r: real)
    ensures a >= 0.0 && b >= 0.0 ==> r >= 0.0
  {
    a * b
  }

  function Pow10(d: nat): (p: nat)
    ensures p >= 1
  {
    if d == 0 then 1 else 10 * Pow10(d - 1)
  }

  /** The nearest integer to `y`; an exact half goes to the even neighbour. */
  function RoundHalfEven(y: real): (n: int)
    ensures (n as real) - 0.5 <= y <= (n as real) + 0.5
    ensures (y == (n as real) - 0.5 || y == (n as real) + 0.5) ==> n % 2 == 0
  {
    var f := y.Floor;
    var frac := y - f as real;
    if frac < 0.5 then f
    else if frac > 0.5 then f + 1
    else if f % 2 == 0 then f
    else f + 1
  }

  /** Only one integer is nearest to `y` with ties broken towards even. */
  lemma RoundHalfEvenUnique(y: real, n: int, m: int)
    requires (n as real) - 0.5 <= y <= (n as real) + 0.5
    requires (y == (n as real) - 0.5 || y == (n as real) + 0.5) ==> n % 2 == 0
    requires (m as real) - 0.5 <= y <= (m as real) + 0.5
    requires (y == (m as real) - 0.5 || y == (m as real) + 0.5) ==> m % 2 == 0
    ensures n == m
  {
  }

  lemma RoundHalfEvenOdd(y: real)
    ensures RoundHalfEven(-y) == -RoundHalfEven(y)
  {
    RoundHalfEvenUnique(-y, RoundHalfEven(-y), -RoundHalfEven(y));
  }

  lemma RoundHalfEvenMonotone(y: real, z: real)
    requires y <= z
    ensures RoundHalfEven(y) <= RoundHalfEven(z)
  {
  }

  lemma RoundHalfEvenOfInt(k: int)
    ensures RoundHalfEven(k as real) == k
  {
    RoundHalfEvenUnique(k as real, RoundHalfEven(k as real), k);
  }

  /** Python's `round(x, d)` on the exact value of `x`. */
  function Round(x: real, d: nat): real
  {
    RoundScaled(x, Pow10(d) as real)
  }

  /** `x` rounded half to even to the nearest multiple of `1 / p`. */
  function RoundScaled(x: real, p: real): real
    requires p > 0.0
  {
    RoundHalfEven(x * p) as real / p
  }

  lemma RoundScaledUnfold(x: real, p: real)
    requires p > 0.0
    ensures RoundScaled(x, p) == RoundHalfEven(x * p) as real / p
  {
  }

  lemma NegateScaled(x: real, p: real)
    ensures -x * p == -(x * p)
  {
  }

  lemma ScaleMonotone(x: real, y: real, p: real)
    requires x <= y && p > 0.0
    ensures x * p <= y * p
  {
  }

  lemma ScaleStrict(x: real, y: real, p: real)
    requires x < y && p > 0.0
    ensures x * p < y * p
  {
  }

  lemma DivideMonotone(a: real, b: real, p: real)
    requires a <= b && p > 0.0
    ensures a / p <= b / p
  {
  }

  lemma DivideStrict(a: real, b: real, p: real)
    requires a < b && p > 0.0
    ensures a / p < b / p
  {
  }

  lemma DivideNegate(a: real, p: real)
    requires p > 0.0
    ensures (-a) / p == -(a / p)
  {
  }

  lemma DivideThenScale(a: real, p: real)
    requires p > 0.0
    ensures (a / p) * p == a
  {
  }

  lemma RoundScaledOdd(x: real, p: real)
    requires p > 0.0
    ensures RoundScaled(-x, p) == -RoundScaled(x, p)
  {
    var n := RoundHalfEven(x * p);
    NegateScaled(x, p);
    RoundHalfEvenOdd(x * p);
    assert RoundHalfEven((-x) * p) == -n;
    DivideNegate(n as real, p);
  }

  lemma RoundScaledMonotone(x: real, y: real, p: real)
    requires x <= y && p > 0.0
    ensures RoundScaled(x, p) <= RoundScaled(y, p)
  {
    ScaleMonotone(x, y, p);
    RoundHalfEvenMonotone(x * p, y * p);
    DivideMonotone(RoundHalfEven(x * p) as real, RoundHalfEven(y * p) as real, p);
  }

  lemma {:induction false} RoundScaledExact(k: int, p: real)
    requires p > 0.0
    ensures RoundScaled(k as real / p, p) == k as real / p
  {
    var a := k as real / p;
    RoundScaledUnfold(a, p);
    DivideThenScale(k as real, p);
    assert a * p == k as real;
    RoundHalfEvenOfInt(k);
    assert RoundHalfEven(a * p) == k;
    assert RoundScaled(a, p) == RoundHalfEven(a * p) as real / p;
  }

  /** Rounding commutes with negation, because ties go to even rather than up. */
  lemma RoundOdd(x: real, d: nat)
    ensures Round(-x, d) == -Round(x, d)
  {
    RoundScaledOdd(x, Pow10(d) as real);
  }

  lemma RoundMonotone(x: real, y: real, d: nat)
    requires x <= y
    ensures Round(x, d) <= Round(y, d)
  {
    RoundScaledMonotone(x, y, Pow10(d) as real);
  }

  /** A number with at most `d` decimals is left as it is. */
  lemma RoundExact(k: int, d: nat)
    ensures Round(k as real / Pow10(d) as real, d) == k as real / Pow10(d) as real
  {
    RoundScaledExact(k, Pow10(d) as real);
  }

  /** An integer is left as it is by rounding to any number of decimals. */
  lemma RoundInteger(k: int, d: nat)
    ensures Round(k as real, d) == k as real
  {
    var p := Pow10(d) as real;
    RoundScaledUnfold(k as real, p);
    RoundHalfEvenOfInt(k * Pow10(d));
    assert (k as real) * p == (k * Pow10(d)) as real;
    assert (k * Pow10(d)) as real / p == k as real;
  }

  /** Rounding keeps a value of [0, 1] inside [0, 1]. */
  lemma RoundUnitInterval(x: real, d: nat)
    requires 0.0 <= x <= 1.0
    ensures 0.0 <= Round(x, d) <= 1.0
  {
    RoundInteger(0, d);
    RoundInteger(1, d);
    RoundMonotone(0.0, x, d);
    RoundMonotone(x, 1.0, d);
  }

  lemma RoundNonNegative(x: real, d: nat)
    requires 0.0 <= x
    ensures 0.0 <= Round(x, d)
  {
    RoundInteger(0, d);
    RoundMonotone(0.0, x, d);
  }

  /** Python's `int(x)`: truncation toward zero. */
  function Trunc(x: real): (n: int)
    ensures Abs(n as real) <= Abs(x) < Abs(n as real) + 1.0
    ensures x >= 0.0 ==> n >= 0
    ensures x <= 0.0 ==> n <= 0
  {
    if x >= 0.0 then x.Floor else -((-x).Floor)
  }

  function DigitChar(d: nat): (c: char)
    requires d < 10
    ensures '0' <= c <= '9'
  {
    "0123456789"[d]
  }

  predicate IsDigits(s: string)
  {
    forall i :: 0 <= i < |s| ==> '0' <= s[i] <= '9'
  }

  /** Python's `str(n)` for a non-negative integer. */
  function NatToString(n: nat): (s: string)
    ensures |s| >= 1 && IsDigits(s)
    decreases n
  {
    if n < 10 then [DigitChar(n)] else NatToString(n / 10) + [DigitChar(n % 10)]
  }

  /** The number a string of decimal digits denotes. */
  function DigitsValue(s: string): nat
    requires IsDigits(s)
  {
    if s == [] then 0 else 10 * DigitsValue(s[..|s| - 1]) + (s[|s| - 1] as int - '0' as int)
  }

  /** Reading back the decimal text of `n` gives `n`. */
  lemma {:induction false} NatToStringRoundTrip(n: nat)
    ensures DigitsValue(NatToString(n)) == n
    decreases n
  {
    var s := NatToString(n);
    if n < 10 {
      assert s[..|s| - 1] == [];
    } else {
      NatToStringRoundTrip(n / 10);
      assert s[..|s| - 1] == NatToString(n / 10);
    }
  }

  /** Python's `str(i)` for any integer. */
  function IntToString(i: int): (s: string)
    ensures |s| >= 1
    ensures i >= 0 ==> s == NatToString(i)
    ensures i < 0 ==> s == "-" + NatToString(-i)
  {
    if i < 0 then "-" + NatToString(-i) else NatToString(i)
  }

  /**
   * Reading `Fixed1(x)` back: after an optional '-', the digits before the point and
   * the one digit after it denote `|x|` in tenths, rounded half to even.
   */
  lemma Fixed1ReadBack(x: real)
    ensures var s := Fixed1(x);
      var k := if x < 0.0 then 1 else 0;
      && k + 2 < |s| && s[|s| - 2] == '.'
      && IsDigits(s[k..|s| - 2]) && IsDigits(s[|s| - 1..])
      && 10 * DigitsValue(s[k..|s| - 2]) + DigitsValue(s[|s| - 1..]) == RoundHalfEven(Abs(x) * 10.0)
  {
    DecimalTextReadBack(x < 0.0, RoundHalfEven(Abs(x) * 10.0));
  }

  /** Reading back `DecimalText`: the digits around the point denote `n` tenths. */
  lemma DecimalTextReadBack(negative: bool, n: nat)
    ensures var s := DecimalText(negative, n);
      var k := if negative then 1 else 0;
      && k + 2 < |s| && s[|s| - 2] == '.'
      && IsDigits(s[k..|s| - 2]) && IsDigits(s[|s| - 1..])
      && 10 * DigitsValue(s[k..|s| - 2]) + DigitsValue(s[|s| - 1..]) == n
  {
    var sign := if negative then "-" else "";
    var head, last := NatToString(n / 10), [DigitChar(n % 10)];
    var s := DecimalText(negative, n);
    assert s == sign + (head + "." + last);
    assert s[|sign|..|s| - 2] == head;
    assert s[|s| - 1..] == last;
    assert last[..0] == [];
    DigitCharValue(n % 10);
    NatToStringRoundTrip(n / 10);
  }

  lemma DigitCharValue(d: nat)
    requires d < 10
    ensures DigitChar(d) as int - '0' as int == d
  {
  }

  /** The characters fixed-point formatting produces: digits, the sign and the point. */
  predicate NumberChar(c: char)
  {
    '0' <= c <= '9' || c == '-' || c == '.'
  }

  /** Python's `f"{x:.1f}"`: sign, integer part, one decimal rounded half to even. */
  function Fixed1(x: real): (s: string)
    ensures forall i :: 0 <= i < |s| ==> NumberChar(s[i])
    ensures |s| >= 3 && (s[0] == '-' <==> x < 0.0)
  {
    var y := Abs(x) * 10.0;
    RoundHalfEvenMonotone(0.0, y);
    RoundHalfEvenOfInt(0);
    DecimalText(x < 0.0, RoundHalfEven(y))
  }

  /** `n` tenths as text: an optional '-', the whole part, '.', and one decimal digit. */
  function DecimalText(negative: bool, n: nat): (s: string)
    ensures forall i :: 0 <= i < |s| ==> NumberChar(s[i])
    ensures |s| >= 3 && (s[0] == '-' <==> negative)
  {
    var digits := NatToString(n / 10) + "." + [DigitChar(n % 10)];
    assert forall i :: 0 <= i < |digits| ==> NumberChar(digits[i]);
    (if negative then "-" else "") + digits
  }


  function Sum(xs: seq<real>): real
  {
    if xs == [] then 0.0 else xs[0] + Sum(xs[1..])
  }

  /** numpy's `mean`. */
  function Mean(xs: seq<real>): real
    requires |xs| > 0
  {
    Sum(xs) / |xs| as real
  }

  /** The sum is the mean times the count. */
  lemma SumIsMeanTimesCount(xs: seq<real>)
    requires |xs| > 0
    ensures Sum(xs) == Mean(xs) * |xs| as real
  {
  }

  /** A mean above `t` means a sum above `|xs| * t`, and likewise below. */
  lemma MeanBeyondSum(xs: seq<real>, t: real)
    requires |xs| > 0
    ensures Mean(xs) > t ==> Sum(xs) > |xs| as real * t
    ensures Mean(xs) < t ==> Sum(xs) < |xs| as real * t
  {
    var n := |xs| as real;
    SumIsMeanTimesCount(xs);
    if Mean(xs) > t {
      ScaleStrict(t, Mean(xs), n);
    } else if Mean(xs) < t {
      ScaleStrict(Mean(xs), t, n);
    }
  }

  /** Some element of `xs` lies strictly above any value its mean exceeds. */
  lemma {:induction false} SumAboveHasWitness(xs: seq<real>, t: real)
    requires Sum(xs) > |xs| as real * t
    ensures exists i :: 0 <= i < |xs| && xs[i] > t
  {
    if xs == [] {
    } else if xs[0] > t {
      assert xs[0] > t;
    } else {
      SumAboveHasWitness(xs[1..], t);
      var i :| 0 <= i < |xs[1..]| && xs[1..][i] > t;
      assert xs[i + 1] > t;
    }
  }

  /** Symmetrically, some element lies strictly below any value above the mean. */
  lemma {:induction false} SumBelowHasWitness(xs: seq<real>, t: real)
    requires Sum(xs) < |xs| as real * t
    ensures exists i :: 0 <= i < |xs| && xs[i] < t
  {
    if xs == [] {
    } else if xs[0] < t {
      assert xs[0] < t;
    } else {
      SumBelowHasWitness(xs[1..], t);
      var i :| 0 <= i < |xs[1..]| && xs[1..][i] < t;
      assert xs[i + 1] < t;
    }
  }
}

=== FILE: seqs.dfy ===
/**
 * Sequence utilities shared by the analysis: Python's stable `sort(key=…, reverse=True)`,
 * the "append if not already present" de-duplication loop, the backward
 * "score what you can" loop, substring tests and ASCII lower-casing.
 */
module Seqs {
  import opened Wrappers

  // ---------------------------------------------------------------------------
  // Stable descending sort

  /** `s` is non-increasing under `key`. */
  predicate SortedDesc<T>(s: seq<T>, key: T -> real)
  {
    forall i, j :: 0 <= i < j < |s| ==> key(s[j]) <= key(s[i])
  }

  /** The elements of `s` whose key equals `v`, in their order in `s`. */
  function KeyFilter<T>(s: seq<T>, key: T -> real, v: real): seq<T>
  {
    if s == [] then []
    else (if key(s[0]) == v then [s[0]] else []) + KeyFilter(s[1..], key, v)
  }

  /** Puts `x` in front of the first element whose key does not exceed `x`'s. */
  function InsertDesc<T(==)>(x: T, s: seq<T>, key: T -> real): (r: seq<T>)
    ensures |r| == |s| + 1
  {
    if s == [] || key(s[0]) <= key(x) then [x] + s
    else [s[0]] + InsertDesc(x, s[1..], key)
  }

  lemma {:induction false} InsertDescPermutes<T>(x: T, s: seq<T>, key: T -> real)
    ensures multiset(InsertDesc(x, s, key)) == multiset(s) + multiset{x}
  {
    if s != [] && key(s[0]) > key(x) {
      InsertDescPermutes(x, s[1..], key);
      assert s == [s[0]] + s[1..];
      assert InsertDesc(x, s, key) == [s[0]] + InsertDesc(x, s[1..], key);
    }
  }

  /** Inserting keeps every key below a common bound. */
  lemma {:induction false} InsertDescBound<T>(x: T, s: seq<T>, key: T -> real, b: real)
    requires key(x) <= b
    requires forall i :: 0 <= i < |s| ==> key(s[i]) <= b
    ensures forall i :: 0 <= i < |InsertDesc(x, s, key)| ==> key(InsertDesc(x, s, key)[i]) <= b
  {
    if s != [] && key(s[0]) > key(x) {
      InsertDescBound(x, s[1..], key, b);
    }
  }

  lemma {:induction false} InsertDescSorted<T>(x: T, s: seq<T>, key: T -> real)
    requires SortedDesc(s, key)
    ensures SortedDesc(InsertDesc(x, s, key), key)
  {
    if s != [] && key(s[0]) > key(x) {
      var rest := InsertDesc(x, s[1..], key);
      InsertDescSorted(x, s[1..], key);
      InsertDescBound(x, s[1..], key, key(s[0]));
      assert InsertDesc(x, s, key) == [s[0]] + rest;
    }
  }

  /**
   * Python's `sorted(s, key=key, reverse=True)`: a non-increasing arrangement of `s`
   * (that it is a permutation is `SortDescPermutes`, stability is `SortDescStable`).
   */
  function SortDesc<T(==)>(s: seq<T>, key: T -> real): (r: seq<T>)
    ensures |r| == |s|
    ensures SortedDesc(r, key)
  {
    if s == [] then []
    else
      InsertDescSorted(s[0], SortDesc(s[1..], key), key);
      InsertDesc(s[0], SortDesc(s[1..], key), key)
  }

  lemma PermutesCons<T>(s: seq<T>, t: seq<T>, r: seq<T>)
    requires s != [] && multiset(t) == multiset(s[1..]) && multiset(r) == multiset(t) + multiset{s[0]}
    ensures multiset(r) == multiset(s)
  {
    assert s == [s[0]] + s[1..];
  }

  /** Sorting rearranges the elements without adding or losing any. */
  lemma {:induction false} SortDescPermutes<T>(s: seq<T>, key: T -> real)
    ensures multiset(SortDesc(s, key)) == multiset(s)
  {
    if s != [] {
      var t := SortDesc(s[1..], key);
      assert SortDesc(s, key) == InsertDesc(s[0], t, key);
      SortDescPermutes(s[1..], key);
      InsertDescPermutes(s[0], t, key);
      PermutesCons(s, t, InsertDesc(s[0], t, key));
    }
  }

  lemma {:induction false} InsertDescKeyFilter<T>(x: T, s: seq<T>, key: T -> real, v: real)
    ensures KeyFilter(InsertDesc(x, s, key), key, v)
         == (if key(x) == v then [x] else []) + KeyFilter(s, key, v)
  {
    var hx := if key(x) == v then [x] else [];
    if s == [] || key(s[0]) <= key(x) {
      assert InsertDesc(x, s, key) == [x] + s;
      assert ([x] + s)[0] == x && ([x] + s)[1..] == s;
      assert KeyFilter([x] + s, key, v) == hx + KeyFilter(s, key, v);
    } else {
      var rest := InsertDesc(x, s[1..], key);
      var h0 := if key(s[0]) == v then [s[0]] else [];
      assert InsertDesc(x, s, key) == [s[0]] + rest;
      assert ([s[0]] + rest)[0] == s[0] && ([s[0]] + rest)[1..] == rest;
      assert KeyFilter([s[0]] + rest, key, v) == h0 + KeyFilter(rest, key, v);
      InsertDescKeyFilter(x, s[1..], key, v);
      assert KeyFilter(s, key, v) == h0 + KeyFilter(s[1..], key, v);
      assert h0 == [] || hx == [];
      assert h0 + (hx + KeyFilter(s[1..], key, v)) == hx + (h0 + KeyFilter(s[1..], key, v));
    }
  }

  /**
   * Stability: elements with equal keys keep their relative order. Together with
   * `SortedDesc` and the multiset equation this pins the result down completely.
   */
  lemma {:induction false} SortDescStable<T>(s: seq<T>, key: T -> real, v: real)
    ensures KeyFilter(SortDesc(s, key), key, v) == KeyFilter(s, key, v)
  {
    if s != [] {
      InsertDescKeyFilter(s[0], SortDesc(s[1..], key), key, v);
      SortDescStable(s[1..], key, v);
    }
  }

  /** Index of the first element of `s` with the largest key. */
  function FirstMaxIndex<T>(s: seq<T>, key: T -> real): (i: nat)
    requires s != []
    ensures i < |s|
    ensures forall j :: 0 <= j < |s| ==> key(s[j]) <= key(s[i])
    ensures forall j :: 0 <= j < i ==> key(s[j]) < key(s[i])
  {
    if |s| == 1 then 0
    else
      var k := FirstMaxIndex(s[1..], key);
      if key(s[0]) >= key(s[1..][k]) then 0 else 1 + k
  }

  /** The head of the stable descending sort is the first element with the largest key. */
  lemma {:induction false} SortDescHead<T>(s: seq<T>, key: T -> real)
    requires s != []
    ensures SortDesc(s, key)[0] == s[FirstMaxIndex(s, key)]
  {
    if |s| > 1 {
      var t := SortDesc(s[1..], key);
      SortDescHead(s[1..], key);
      var k := FirstMaxIndex(s[1..], key);
      assert t[0] == s[1..][k];
    }
  }

  // ---------------------------------------------------------------------------
  // De-duplication in first-occurrence order

  predicate NoDup<T(==)>(s: seq<T>)
  {
    forall i, j :: 0 <= i < j < |s| ==> s[i] != s[j]
  }

  /**
   * The loop `for x in s[:n]: if x not in acc: acc.append(x)`: the distinct elements of
   * `s[..n]`, each listed once (their order is `DedupPrefixKeepsFirst`).
   */
  function DedupPrefix<T(==)>(s: seq<T>, n: nat): (r: seq<T>)
    requires n <= |s|
    ensures NoDup(r)
    ensures forall i :: 0 <= i < |r| ==> r[i] in s[..n]
    ensures forall i :: 0 <= i < n ==> s[i] in r
  {
    if n == 0 then []
    else
      var r := DedupPrefix(s, n - 1);
      assert s[..n] == s[..n - 1] + [s[n - 1]];
      if s[n - 1] in r then r else r + [s[n - 1]]
  }

  /** The elements of `s[..n]` that do not occur earlier in `s`, in their order in `s`. */
  function FirstOccurrences<T(==)>(s: seq<T>, n: nat): seq<T>
    requires n <= |s|
  {
    if n == 0 then []
    else FirstOccurrences(s, n - 1) + (if s[n - 1] in s[..n - 1] then [] else [s[n - 1]])
  }

  /** De-duplication keeps exactly the first occurrence of each element, in order. */
  lemma {:induction false} DedupPrefixKeepsFirst<T>(s: seq<T>, n: nat)
    requires n <= |s|
    ensures DedupPrefix(s, n) == FirstOccurrences(s, n)
  {
    if n > 0 {
      var r, x := DedupPrefix(s, n - 1), s[n - 1];
      DedupPrefixKeepsFirst(s, n - 1);
      DedupPrefixMember(s, n - 1, x);
      assert FirstOccurrences(s, n) == r + (if x in s[..n - 1] then [] else [x]);
      if x in r {
        assert DedupPrefix(s, n) == r;
      } else {
        assert DedupPrefix(s, n) == r + [x];
      }
    }
  }

  /** Membership in the de-duplicated prefix is membership in the prefix. */
  lemma DedupPrefixMember<T>(s: seq<T>, n: nat, x: T)
    requires n <= |s|
    ensures x in DedupPrefix(s, n) <==> x in s[..n]
  {
    var r := DedupPrefix(s, n);
    if x in s[..n] {
      var k :| 0 <= k < n && s[..n][k] == x;
      assert s[k] in r;
    }
  }

  function Dedup<T(==)>(s: seq<T>): (r: seq<T>)
    ensures NoDup(r)
    ensures forall i :: 0 <= i < |r| ==> r[i] in s
    ensures forall i :: 0 <= i < |s| ==> s[i] in r
  {
    assert s[..|s|] == s;
    DedupPrefix(s, |s|)
  }

  /** `Dedup` keeps the first occurrence of each element, in order. */
  lemma DedupKeepsFirst<T>(s: seq<T>)
    ensures Dedup(s) == FirstOccurrences(s, |s|)
  {
    DedupPrefixKeepsFirst(s, |s|);
  }

  /** A duplicate-free sequence holds each value at most once. */
  lemma {:induction false} NoDupCount<T>(s: seq<T>, x: T)
    requires NoDup(s)
    ensures multiset(s)[x] <= 1
  {
    if s != [] {
      assert NoDup(s[1..]) by {
        forall i, j | 0 <= i < j < |s[1..]|
          ensures s[1..][i] != s[1..][j]
        {
          assert s[1..][i] == s[i + 1] && s[1..][j] == s[j + 1];
        }
      }
      NoDupCount(s[1..], x);
      assert s == [s[0]] + s[1..];
      assert s[0] !in s[1..];
    }
  }

  /** Reordering a duplicate-free sequence leaves it duplicate-free. */
  lemma PermutationNoDup<T>(a: seq<T>, b: seq<T>)
    requires multiset(a) == multiset(b) && NoDup(a)
    ensures NoDup(b)
  {
    forall i, j | 0 <= i < j < |b|
      ensures b[i] != b[j]
    {
      var x := b[i];
      assert b == b[..i + 1] + b[i + 1..];
      assert multiset(b)[x] == multiset(b[..i + 1])[x] + multiset(b[i + 1..])[x];
      assert b[..i + 1][i] == x;
      NoDupCount(a, x);
      assert x !in b[i + 1..];
      assert b[i + 1..][j - i - 1] == b[j];
    }
  }

  // ---------------------------------------------------------------------------
  // Backward filter-map

  /** `[f(x) for x in xs if f(x) is not None]`. */
  function FilterMap<T, U>(xs: seq<T>, f: T -> Option<U>): (r: seq<U>)
    ensures |r| <= |xs|
  {
    if xs == [] then []
    else
      var here := f(xs[0]);
      (if here.Some? then [here.value] else []) + FilterMap(xs[1..], f)
  }

  /** Every result of a filter-map comes from some input. */
  lemma {:induction false} FilterMapSource<T, U>(xs: seq<T>, f: T -> Option<U>, i: nat) returns (j: nat)
    requires i < |FilterMap(xs, f)|
    ensures j < |xs| && f(xs[j]) == Some(FilterMap(xs, f)[i])
    ensures |FilterMap(xs[..j], f)| == i
  {
    var here := f(xs[0]);
    var rest := FilterMap(xs[1..], f);
    if here.Some? && i == 0 {
      j := 0;
      assert xs[..j] == [];
    } else {
      var i' := if here.Some? then i - 1 else i;
      assert FilterMap(xs, f)[i] == rest[i'];
      var j' := FilterMapSource(xs[1..], f, i');
      j := j' + 1;
      assert xs[..j] == [xs[0]] + xs[1..][..j'];
      FilterMapAppend([xs[0]], xs[1..][..j'], f);
      assert FilterMap([xs[0]], f) == (if here.Some? then [here.value] else []) + FilterMap([xs[0]][1..], f);
      assert [xs[0]][1..] == [];
    }
  }

  lemma {:induction false} FilterMapAppend<T, U>(a: seq<T>, b: seq<T>, f: T -> Option<U>)
    ensures FilterMap(a + b, f) == FilterMap(a, f) + FilterMap(b, f)
  {
    if a == [] {
      assert a + b == b;
    } else {
      var h := if f(a[0]).Some? then [f(a[0]).value] else [];
      assert (a + b)[0] == a[0];
      assert (a + b)[1..] == a[1..] + b;
      assert FilterMap(a + b, f) == h + FilterMap(a[1..] + b, f);
      assert FilterMap(a, f) == h + FilterMap(a[1..], f);
      FilterMapAppend(a[1..], b, f);
      assert h + (FilterMap(a[1..], f) + FilterMap(b, f)) == (h + FilterMap(a[1..], f)) + FilterMap(b, f);
    }
  }

  /** Every defined result is kept: an input whose image is defined contributes it. */
  lemma {:induction false} FilterMapComplete<T, U>(xs: seq<T>, f: T -> Option<U>, j: nat)
    requires j < |xs| && f(xs[j]).Some?
    ensures f(xs[j]).value in FilterMap(xs, f)
  {
    var h := if f(xs[0]).Some? then [f(xs[0]).value] else [];
    assert FilterMap(xs, f) == h + FilterMap(xs[1..], f);
    if j > 0 {
      FilterMapComplete(xs[1..], f, j - 1);
      assert xs[1..][j - 1] == xs[j];
    }
  }

  lemma NoDupCons<T>(x: T, s: seq<T>)
    requires NoDup(s) && forall k :: 0 <= k < |s| ==> s[k] != x
    ensures NoDup([x] + s)
  {
    forall a, b | 0 <= a < b < |[x] + s|
      ensures ([x] + s)[a] != ([x] + s)[b]
    {
      assert ([x] + s)[b] == s[b - 1];
      if a > 0 {
        assert ([x] + s)[a] == s[a - 1];
      }
    }
  }

  /** When distinct positions never share a defined image, the results have no duplicates. */
  lemma {:induction false} FilterMapNoDup<T, U>(xs: seq<T>, f: T -> Option<U>)
    requires forall i, j :: 0 <= i < j < |xs| && f(xs[i]).Some? ==> f(xs[i]) != f(xs[j])
    ensures NoDup(FilterMap(xs, f))
  {
    if xs != [] {
      var tail := xs[1..];
      forall i, j | 0 <= i < j < |tail| && f(tail[i]).Some?
        ensures f(tail[i]) != f(tail[j])
      {
        assert tail[i] == xs[i + 1] && tail[j] == xs[j + 1];
      }
      FilterMapNoDup(tail, f);
      var rest := FilterMap(tail, f);
      if f(xs[0]).Some? {
        forall k | 0 <= k < |rest|
          ensures rest[k] != f(xs[0]).value
        {
          var j := FilterMapSource(tail, f, k);
          assert tail[j] == xs[j + 1];
        }
        NoDupCons(f(xs[0]).value, rest);
        assert FilterMap(xs, f) == [f(xs[0]).value] + rest;
      } else {
        assert FilterMap(xs, f) == rest;
      }
    }
  }

  /** `FilterMapComplete`, after sorting. */
  lemma SortedFilterMapComplete<T, U>(xs: seq<T>, f: T -> Option<U>, key: U -> real, j: nat)
    requires j < |xs| && f(xs[j]).Some?
    ensures f(xs[j]).value in SortDesc(FilterMap(xs, f), key)
  {
    FilterMapComplete(xs, f, j);
    SortDescPermutes(FilterMap(xs, f), key);
    assert f(xs[j]).value in multiset(SortDesc(FilterMap(xs, f), key));
  }

  /** `FilterMapNoDup`, after sorting. */
  lemma SortedFilterMapNoDup<T, U>(xs: seq<T>, f: T -> Option<U>, key: U -> real)
    requires forall i, j :: 0 <= i < j < |xs| && f(xs[i]).Some? ==> f(xs[i]) != f(xs[j])
    ensures NoDup(SortDesc(FilterMap(xs, f), key))
  {
    FilterMapNoDup(xs, f);
    SortDescPermutes(FilterMap(xs, f), key);
    PermutationNoDup(FilterMap(xs, f), SortDesc(FilterMap(xs, f), key));
  }

  /** Every element of the sorted results of a filter-map comes from some input. */
  lemma SortedFilterMapSource<T, U>(xs: seq<T>, f: T -> Option<U>, key: U -> real, y: U) returns (x: T)
    requires y in SortDesc(FilterMap(xs, f), key)
    ensures x in xs && f(x) == Some(y)
  {
    var u := FilterMap(xs, f);
    SortDescPermutes(u, key);
    assert y in multiset(SortDesc(u, key));
    var i :| 0 <= i < |u| && u[i] == y;
    var j := FilterMapSource(xs, f, i);
    x := xs[j];
  }

  /** The results of a filter-map, as a multiset, do not depend on the input order. */
  lemma {:induction false} FilterMapPermutation<T, U>(a: seq<T>, b: seq<T>, f: T -> Option<U>)
    requires multiset(a) == multiset(b)
    ensures multiset(FilterMap(a, f)) == multiset(FilterMap(b, f))
    decreases |a|
  {
    if a != [] {
      var x := a[0];
      assert x in multiset(b);
      var i :| 0 <= i < |b| && b[i] == x;
      var left, right := b[..i], b[i + 1..];
      RemoveMatching(a, b, i);
      FilterMapPermutation(a[1..], left + right, f);
      FilterMapSplit(a, b, i, f);
    }
  }

  /** Taking the same element out of two permutations of each other leaves permutations. */
  lemma RemoveMatching<T>(a: seq<T>, b: seq<T>, i: nat)
    requires multiset(a) == multiset(b) && a != [] && i < |b| && b[i] == a[0]
    ensures multiset(a[1..]) == multiset(b[..i] + b[i + 1..])
  {
    var x, left, right := a[0], b[..i], b[i + 1..];
    assert b == left + [x] + right;
    assert a == [x] + a[1..];
    assert multiset(b) == multiset(left + right) + multiset{x};
    assert multiset(a) == multiset(a[1..]) + multiset{x};
    forall y
      ensures multiset(a[1..])[y] == multiset(left + right)[y]
    {
      assert multiset(a)[y] == multiset(b)[y];
    }
  }

  /** Both filter-maps split around the matched element. */
  lemma FilterMapSplit<T, U>(a: seq<T>, b: seq<T>, i: nat, f: T -> Option<U>)
    requires a != [] && i < |b| && b[i] == a[0]
    requires multiset(FilterMap(a[1..], f)) == multiset(FilterMap(b[..i] + b[i + 1..], f))
    ensures multiset(FilterMap(a, f)) == multiset(FilterMap(b, f))
  {
    var x, left, right := a[0], b[..i], b[i + 1..];
    assert b == left + [x] + right;
    assert a == [x] + a[1..];
    FilterMapAppend(left, right, f);
    FilterMapAppend([x], a[1..], f);
    FilterMapAppend(left + [x], right, f);
    FilterMapAppend(left, [x], f);
    var fl, fx, fr, rest := FilterMap(left, f), FilterMap([x], f), FilterMap(right, f), FilterMap(a[1..], f);
    assert FilterMap(a, f) == fx + rest;
    assert FilterMap(b, f) == fl + fx + fr;
    assert multiset(rest) == multiset(fl + fr);
    MultisetMoveFront(fl, fx, fr, rest);
  }

  lemma MultisetMoveFront<T>(l: seq<T>, x: seq<T>, r: seq<T>, rest: seq<T>)
    requires multiset(rest) == multiset(l + r)
    ensures multiset(x + rest) == multiset(l + x + r)
  {
  }

  /** Positions `p < n` with `f(xs[p])` defined, from the last to the first. */
  function DefinedPositions<T, U>(xs: seq<T>, f: T -> Option<U>, n: nat): (ps: seq<nat>)
    requires n <= |xs|
    ensures forall i :: 0 <= i < |ps| ==> ps[i] < n && f(xs[ps[i]]).Some?
    ensures forall i, j :: 0 <= i < j < |ps| ==> ps[i] > ps[j]
    ensures forall p :: 0 <= p < n && f(xs[p]).Some? ==> p in ps
  {
    if n == 0 then []
    else
      var rest := DefinedPositions(xs, f, n - 1);
      if f(xs[n - 1]).Some? then [n - 1] + rest else rest
  }

  /** With nothing defined there are no positions. */
  lemma {:induction false} NoDefinedPositions<T, U>(xs: seq<T>, f: T -> Option<U>, n: nat)
    requires n <= |xs|
    requires forall p :: 0 <= p < n ==> f(xs[p]).None?
    ensures DefinedPositions(xs, f, n) == []
  {
    if n > 0 {
      NoDefinedPositions(xs, f, n - 1);
      assert f(xs[n - 1]).None?;
    }
  }

  /** The loop `for x in reversed(xs[:n]): if f(x) is not None: out.append(f(x))`. */
  function FilterMapReversed<T, U>(xs: seq<T>, f: T -> Option<U>, n: nat): (r: seq<U>)
    requires n <= |xs|
    ensures var ps := DefinedPositions(xs, f, n);
      |r| == |ps| && forall i :: 0 <= i < |r| ==> f(xs[ps[i]]) == Some(r[i])
  {
    if n == 0 then []
    else
      var rest := FilterMapReversed(xs, f, n - 1);
      var here := f(xs[n - 1]);
      if here.Some? then
        ReversedStep(xs, f, n, rest);
        [here.value] + rest
      else
        assert DefinedPositions(xs, f, n) == DefinedPositions(xs, f, n - 1);
        rest
  }

  /** One step of `FilterMapReversed` at a defined position. */
  lemma ReversedStep<T, U>(xs: seq<T>, f: T -> Option<U>, n: nat, rest: seq<U>)
    requires 0 < n <= |xs| && f(xs[n - 1]).Some?
    requires var ps := DefinedPositions(xs, f, n - 1);
      |rest| == |ps| && forall i :: 0 <= i < |rest| ==> f(xs[ps[i]]) == Some(rest[i])
    ensures var ps := DefinedPositions(xs, f, n); var r := [f(xs[n - 1]).value] + rest;
      |r| == |ps| && forall i :: 0 <= i < |r| ==> f(xs[ps[i]]) == Some(r[i])
  {
    var ps := DefinedPositions(xs, f, n - 1);
    var ps' := DefinedPositions(xs, f, n);
    var r := [f(xs[n - 1]).value] + rest;
    assert ps' == [n - 1] + ps;
    forall i | 0 <= i < |r|
      ensures f(xs[ps'[i]]) == Some(r[i])
    {
      if i > 0 {
        assert ps'[i] == ps[i - 1] && r[i] == rest[i - 1];
      }
    }
  }

  /**
   * The first element of the stably sorted backward results comes from a position
   * whose key is the largest, and no later position reaches that key.
   */
  lemma BestOfReversed<T, U>(xs: seq<T>, f: T -> Option<U>, key: U -> real, q: nat) returns (p: nat)
    requires q < |xs| && f(xs[q]).Some?
    ensures p < |xs| && f(xs[p]).Some?
    ensures FilterMapReversed(xs, f, |xs|) != []
    ensures SortDesc(FilterMapReversed(xs, f, |xs|), key)[0] == f(xs[p]).value
    ensures forall k :: 0 <= k < |xs| && f(xs[k]).Some? ==> key(f(xs[k]).value) <= key(f(xs[p]).value)
    ensures forall k :: p < k < |xs| && f(xs[k]).Some? ==> key(f(xs[k]).value) < key(f(xs[p]).value)
  {
    var ps := DefinedPositions(xs, f, |xs|);
    var r := FilterMapReversed(xs, f, |xs|);
    var _ := PositionIndex(xs, f, q);
    var m := FirstMaxIndex(r, key);
    SortDescHead(r, key);
    p := ps[m];
    assert f(xs[p]) == Some(r[m]);
    forall k | 0 <= k < |xs| && f(xs[k]).Some?
      ensures key(f(xs[k]).value) <= key(f(xs[p]).value)
      ensures p < k ==> key(f(xs[k]).value) < key(f(xs[p]).value)
    {
      ComparePositions(xs, f, key, m, k);
    }
  }

  /** Where a defined position sits among the defined positions. */
  lemma PositionIndex<T, U>(xs: seq<T>, f: T -> Option<U>, k: nat) returns (j: nat)
    requires k < |xs| && f(xs[k]).Some?
    ensures j < |DefinedPositions(xs, f, |xs|)| && DefinedPositions(xs, f, |xs|)[j] == k
    ensures j < |FilterMapReversed(xs, f, |xs|)| && f(xs[k]) == Some(FilterMapReversed(xs, f, |xs|)[j])
  {
    var ps := DefinedPositions(xs, f, |xs|);
    assert k in ps;
    j :| 0 <= j < |ps| && ps[j] == k;
  }

  /** A defined position compared with the one holding the first largest result. */
  lemma ComparePositions<T, U>(xs: seq<T>, f: T -> Option<U>, key: U -> real, m: nat, k: nat)
    requires m < |FilterMapReversed(xs, f, |xs|)|
    requires forall j :: 0 <= j < |FilterMapReversed(xs, f, |xs|)|
               ==> key(FilterMapReversed(xs, f, |xs|)[j]) <= key(FilterMapReversed(xs, f, |xs|)[m])
    requires forall j :: 0 <= j < m
               ==> key(FilterMapReversed(xs, f, |xs|)[j]) < key(FilterMapReversed(xs, f, |xs|)[m])
    requires k < |xs| && f(xs[k]).Some?
    ensures var p := DefinedPositions(xs, f, |xs|)[m];
      && f(xs[p]) == Some(FilterMapReversed(xs, f, |xs|)[m])
      && key(f(xs[k]).value) <= key(f(xs[p]).value)
      && (p < k ==> key(f(xs[k]).value) < key(f(xs[p]).value))
  {
    var ps := DefinedPositions(xs, f, |xs|);
    var j := PositionIndex(xs, f, k);
    if ps[m] < k {
      assert !(m <= j);
    }
  }

  // ---------------------------------------------------------------------------
  // Text

  /** Python's `t in s` for strings: `t` occurs contiguously in `s`. */
  function Contains(s: string, t: string): bool
  {
    if t <= s then true
    else if s == [] then false
    else Contains(s[1..], t)
  }

  lemma {:induction false} ContainsChar(s: string, c: char)
    ensures Contains(s, [c]) <==> c in s
  {
    if s == [] {
    } else if [c] <= s {
      assert s[0] == c;
    } else {
      ContainsChar(s[1..], c);
      assert Contains(s, [c]) == Contains(s[1..], [c]);
      assert s == [s[0]] + s[1..] && s[0] != c;
    }
  }

  /** Every character of a contained string occurs in the container. */
  lemma {:induction false} ContainsHasChars(s: string, t: string, i: nat)
    requires Contains(s, t) && i < |t|
    ensures t[i] in s
  {
    if t <= s {
      assert s[i] == t[i];
    } else {
      ContainsHasChars(s[1..], t, i);
    }
  }

  lemma ContainsSelf(s: string)
    ensures Contains(s, s)
  {
    assert s <= s;
  }

  lemma {:induction false} ContainsExtend(s: string, t: string, u: string)
    requires Contains(s, t)
    ensures Contains(s + u, t)
  {
    if t <= s {
      assert t <= s + u;
    } else {
      ContainsExtend(s[1..], t, u);
      assert (s + u)[1..] == s[1..] + u;
    }
  }

  lemma {:induction false} ContainsAfter(u: string, s: string, t: string)
    requires Contains(s, t)
    ensures Contains(u + s, t)
  {
    if u != [] {
      ContainsAfter(u[1..], s, t);
      assert (u + s)[1..] == u[1..] + s;
      assert u + s != [];
      assert Contains(u + s, t) == (t <= u + s || Contains((u + s)[1..], t));
    } else {
      assert u + s == s;
    }
  }

  lemma ContainsMiddle(u: string, t: string, v: string)
    ensures Contains(u + t + v, t)
  {
    ContainsSelf(t);
    ContainsAfter(u, t, t);
    ContainsExtend(u + t, t, v);
  }

  /** A string missing one of the characters of `t` does not contain `t`. */
  lemma {:induction false} MissingCharNotContained(s: string, t: string, i: nat)
    requires i < |t| && t[i] !in s
    ensures !Contains(s, t)
  {
    assert i < |s| ==> s[i] != t[i];
    if s != [] {
      assert forall j :: 0 <= j < |s[1..]| ==> s[1..][j] == s[j + 1];
      MissingCharNotContained(s[1..], t, i);
    }
  }

  function LowerChar(c: char): char
  {
    if 'A' <= c <= 'Z' then (c as int + 32) as char else c
  }

  /** Python's `str.lower()` on ASCII letters; other characters are kept. */
  function Lower(s: string): (r: string)
    ensures |r| == |s|
    ensures forall i :: 0 <= i < |s| ==> r[i] == LowerChar(s[i])
  {
    if s == [] then [] else [LowerChar(s[0])] + Lower(s[1..])
  }

  /** Lower-casing leaves a string without upper-case letters unchanged. */
  lemma LowerKeepsNonUpper(s: string)
    requires forall i :: 0 <= i < |s| ==> !('A' <= s[i] <= 'Z')
    ensures Lower(s) == s
  {
  }
}

=== FILE: traces.dfy ===
/**
 * The trace data model: `PipelineStep`, `PipelineTrace` and the derived `step_names`
 * and `is_failure`, plus the step lookups every analysis stage shares.
 */
module Traces {
  import opened Wrappers
  import opened Values
  import opened Host

  /** A point in time; the logger receives the current time from its caller. */
  type Timestamp = int

  /** One step execution. `error` is `None` when the step did not report one. */
  datatype Step = Step(
    name: string,
    stepType: string,
    inputs: Dict,
    outputs: Dict,
    metadata: Dict,
    latencyMs: real,
    error: Option<string>)

  /** One execution of the whole pipeline; `steps` is in execution order. */
  datatype Trace = Trace(
    traceId: string,
    steps: seq<Step>,
    finalOutput: Value,
    quality: Option<real>,
    timestamp: Timestamp,
    context: Dict)

  /** `step.error is not None`: an error was recorded, possibly the empty string. */
  predicate HasError(s: Step)
  {
    s.error.Some?
  }

  /** `if step.error:`: an error was recorded and it is not the empty string. */
  predicate ErrorTruthy(s: Step)
  {
    s.error.Some? && s.error.value != ""
  }

  function Names(steps: seq<Step>): (names: seq<string>)
    ensures |names| == |steps|
    ensures forall i :: 0 <= i < |steps| ==> names[i] == steps[i].name
  {
    if steps == [] then [] else [steps[0].name] + Names(steps[1..])
  }

  /** `PipelineTrace.step_names`. */
  function StepNames(t: Trace): seq<string>
  {
    Names(t.steps)
  }

  /** `any(s.error is not None for s in steps)`. */
  function AnyError(steps: seq<Step>): bool
  {
    steps != [] && (HasError(steps[0]) || AnyError(steps[1..]))
  }

  lemma {:induction false} AnyErrorMeansSomeStep(steps: seq<Step>)
    ensures AnyError(steps) <==> exists i :: 0 <= i < |steps| && HasError(steps[i])
  {
    if steps != [] {
      AnyErrorMeansSomeStep(steps[1..]);
      if HasError(steps[0]) {
        assert HasError(steps[0]);
      } else if AnyError(steps[1..]) {
        var i :| 0 <= i < |steps[1..]| && HasError(steps[1..][i]);
        assert HasError(steps[i + 1]);
      } else {
        forall i | 0 <= i < |steps|
          ensures !HasError(steps[i])
        {
          if i > 0 {
            assert steps[i] == steps[1..][i - 1];
          }
        }
      }
    }
  }

  /** `PipelineTrace.is_failure`: a quality score decides; only without one do errors count. */
  predicate IsFailure(t: Trace)
  {
    if t.quality.Some? then t.quality.value < 0.5 else AnyError(t.steps)
  }

  /**
   * The failure rule: low quality when a score is present, otherwise a recorded error
   * (even an empty one) in some step.
   */
  lemma IsFailureRule(t: Trace)
    ensures IsFailure(t) <==>
      || (t.quality.Some? && t.quality.value < 0.5)
      || (t.quality.None? && exists i :: 0 <= i < |t.steps| && HasError(t.steps[i]))
  {
    AnyErrorMeansSomeStep(t.steps);
  }

  /** `next((i for i, s in enumerate(steps) if s.name == name), None)`. */
  function FindStepIndex(steps: seq<Step>, name: string): (r: Option<nat>)
    ensures r.Some? ==> r.value < |steps| && steps[r.value].name == name
    ensures r.Some? ==> forall j :: 0 <= j < r.value ==> steps[j].name != name
    ensures r.None? ==> forall j :: 0 <= j < |steps| ==> steps[j].name != name
  {
    if steps == [] then None
    else if steps[0].name == name then Some(0)
    else
      match FindStepIndex(steps[1..], name)
      case Some(i) => Some(i + 1)
      case None => None
  }

  /** `next((s for s in steps if s.name == name), None)`: the first step with that name. */
  function FindStep(steps: seq<Step>, name: string): (r: Option<Step>)
    ensures r.Some? <==> name in Names(steps)
    ensures r.Some? ==> r.value.name == name && r.value in steps
  {
    match FindStepIndex(steps, name)
    case Some(i) => Some(steps[i])
    case None => None
  }

  /** Key fallback for a step's output text: "text", then "output". */
  const OutputKeys: seq<string> := ["text", "output"]

  /** `str(step.outputs.get("text", step.outputs.get("output", "")))`. */
  function OutputText(o: Oracles, step: Step): string
  {
    Str(o, Lookup(step.outputs, OutputKeys, VStr("")))
  }

  /** The length feature every stage uses: `len(OutputText)`. */
  function OutputLength(o: Oracles, step: Step): nat
  {
    |OutputText(o, step)|
  }

  lemma OutputLengthFallback(o: Oracles, step: Step)
    ensures "text" in step.outputs ==> OutputText(o, step) == Str(o, step.outputs["text"])
    ensures "text" !in step.outputs && "output" in step.outputs
            ==> OutputText(o, step) == Str(o, step.outputs["output"])
    ensures "text" !in step.outputs && "output" !in step.outputs ==> OutputLength(o, step) == 0
  {
    assert OutputKeys[0] == "text" && OutputKeys[1] == "output";
  }
}

=== FILE: values.dfy ===
/**
 * The JSON-like values stored in a step's `inputs`, `outputs`, `metadata` and a trace's
 * `context` (Python `dict[str, Any]`), the ordered-key `dict.get` fallback the analysis
 * uses, and the exporter's `_safe_serialize`.
 */
module Values {
  import opened Wrappers

  /**
   * A Python value. `VObject` is any other object (a datetime, a set, a custom class);
   * it carries the text its `str()` produces.
   */
  datatype Value =
    | VNone
    | VBool(b: bool)
    | VInt(i: int)
    | VFloat(f: real)
    | VStr(s: string)
    | VList(items: seq<Value>)
    | VDict(entries: map<string, Value>)
    | VObject(text: string)

  type Dict = map<string, Value>

  /**
   * `m.get(k0, m.get(k1, … default))`: the value under the first key of `keys` that is
   * present in `m` (whatever that value is, `None` included), else `default`.
   */
  function Lookup(m: Dict, keys: seq<string>, default: Value): (v: Value)
    ensures (forall i :: 0 <= i < |keys| ==> keys[i] !in m) ==> v == default
    ensures forall i :: 0 <= i < |keys| && keys[i] in m && (forall j :: 0 <= j < i ==> keys[j] !in m)
                        ==> v == m[keys[i]]
  {
    if keys == [] then default
    else if keys[0] in m then m[keys[0]]
    else
      assert forall i :: 1 <= i < |keys| ==> keys[1..][i - 1] == keys[i];
      Lookup(m, keys[1..], default)
  }

  /** A value `json.dumps` accepts without falling back to `str`: no `VObject` inside. */
  predicate Serializable(v: Value)
  {
    match v
    case VObject(_) => false
    case VList(xs) => forall i :: 0 <= i < |xs| ==> Serializable(xs[i])
    case VDict(m) => forall k :: k in m ==> Serializable(m[k])
    case _ => true
  }

  /**
   * `_safe_serialize`: dictionaries and lists are rebuilt element-wise, scalars are kept,
   * anything else becomes its `str()` text.
   */
  function SafeSerialize(v: Value): (r: Value)
    ensures v.VNone? || v.VBool? || v.VInt? || v.VFloat? || v.VStr? ==> r == v
    ensures v.VObject? ==> r == VStr(v.text)
    ensures v.VDict? ==> r.VDict? && r.entries.Keys == v.entries.Keys
    ensures v.VList? ==> r.VList? && |r.items| == |v.items|
    ensures v.VDict? ==> forall k :: k in v.entries ==> r.entries[k] == SafeSerialize(v.entries[k])
    ensures v.VList? ==> forall i :: 0 <= i < |v.items| ==> r.items[i] == SafeSerialize(v.items[i])
    ensures Serializable(r)
  {
    match v
    case VDict(m) => VDict(map k | k in m :: SafeSerialize(m[k]))
    case VList(xs) => VList(seq(|xs|, i requires 0 <= i < |xs| => SafeSerialize(xs[i])))
    case VObject(t) => VStr(t)
    case _ => v
  }

  /** Values that are already serializable pass through unchanged. */
  lemma {:induction false} SafeSerializeFixesSerializable(v: Value)
    requires Serializable(v)
    ensures SafeSerialize(v) == v
  {
    match v
    case VDict(m) =>
      forall k | k in m
        ensures SafeSerialize(m[k]) == m[k]
      {
        SafeSerializeFixesSerializable(m[k]);
      }
      assert (map k | k in m :: SafeSerialize(m[k])) == m;
    case VList(xs) =>
      forall i | 0 <= i < |xs|
        ensures SafeSerialize(xs[i]) == xs[i]
      {
        SafeSerializeFixesSerializable(xs[i]);
      }
      assert seq(|xs|, i requires 0 <= i < |xs| => SafeSerialize(xs[i])) == xs;
    case _ =>
  }

  /**
   * A nested object, at any key of a dictionary or any index of a list, comes back as the
   * string of its `str()` text; its siblings are serialized independently.
   */
  lemma NestedObjectBecomesText(v: Value, k: string, i: int)
    ensures v.VDict? && k in v.entries && v.entries[k].VObject? ==>
              SafeSerialize(v).entries[k] == VStr(v.entries[k].text)
    ensures v.VList? && 0 <= i < |v.items| && v.items[i].VObject? ==>
              SafeSerialize(v).items[i] == VStr(v.items[i].text)
  {
  }

  /** Serializing twice is the same as serializing once. */
  lemma SafeSerializeIdempotent(v: Value)
    ensures SafeSerialize(SafeSerialize(v)) == SafeSerialize(v)
  {
    SafeSerializeFixesSerializable(SafeSerialize(v));
  }
}

=== FILE: wrappers.dfy ===
/** Optional values, standing for Python's `X | None`. */
module Wrappers {

  datatype Option<+T> = None | Some(value: T) {

    /** The wrapped value, or `default` when there is none (Python's `x or default` on dicts). */
    function GetOr(default: T): T {
      match this
      case Some(v) => v
      case None => default
    }
  }
}
